=== FILE: README.md ===
# dtty console driver for STM32 (UART and USB CDC backends) in Dafny

This project models the two backends of the ubinos `dtty` console driver
for STM32: the interrupt-mode serial backend (`dtty_stm32_uart.c`) and the
USB CDC virtual serial backend (`dtty_stm32_usbd.c`). Both expose the same
entry points: `dtty_init`, `dtty_getc`/`dtty_getc_unblocked`, `dtty_putc`,
`dtty_putn`, `dtty_flush` and `dtty_kbhit`. Each also has interrupt
callbacks that the HAL or USB stack calls.

The driver's globals form one immutable `State` record per backend: the
read and write ring buffers, plus the ISR-side buffer on USB. The record
also holds the `need_reset` and restart flags, `write_trying_size`, the
overflow and reset counters, and the `init`/`in_init`/`echo`/`autocr`
flags that both backends share. Each entry point and each callback is a
pure function. It maps the old state and its inputs to the new state and
its result. The inputs are:

- the HAL or USB status code;
- the received byte or packet;
- whether the call runs in interrupt or critical context;
- whether the kernel is active.

Semaphore gives and calls of `bsp_abortsystem` are fields of the result
(`Signals`, `Step.abort`). A blocking loop is modelled one pass at a time.
A pass ends either in a return (`Ready`) or in a wait on a semaphore
(`Waiting`), and the caller then runs the next pass. Interrupt callbacks
may fire between passes.

The ring buffer (`cbuf`) is not part of this model. `RingBuffer.Ring`
stands in for it, with storage of `cap` slots, the `head` slot and the
queued `data`. The model assumes three things about it:

- `cbuf_write` stores the leading `min(len, free)` bytes and reports that
  count;
- `cbuf_read` of `n` bytes removes `min(n, len)` bytes from the head;
- `cbuf_clear` empties the queue and leaves the head slot where it was.

The `uint32_t` counters wrap explicitly (`Common.Inc32`). `(uint8_t) ch`
is reduction modulo 256 (`Common.ToByte`).

Files: `common.dfy` (shared types, newline expansion), `ring.dfy` (the
abstract ring buffer), `uart.dfy` (module `UartDriver`) and `usbd.dfy`
(module `UsbDriver`).

## Behaviours modelled as written

Some behaviours of the source look unintended. They are modelled as the
code does them, and a lemma or contract brings each one out:

- A non-blocking read of an empty buffer returns 0, not a failure. `r`
  still holds the result of the successful lock, and the unchanged `*ch_p`
  is echoed (`UartDriver.NonblockingEmptyReadSucceeds`,
  `UsbDriver.NonblockingEmptyReadSucceeds`).
- The USB transmit path submits every queued byte starting at the head
  slot. It does not submit just the contiguous run. The submission
  therefore runs past the end of the write buffer's storage exactly when
  the queue has wrapped (`UsbDriver.TxResubmitOverrunsIffWrapped`,
  `UsbDriver.TxResubmitOverrunWitness`,
  `UsbDriver.PutcSubmitOverrunsIffWrapped`). `dtty_write_process` does use
  the contiguous run.
- The overflow counters count truncated calls, not dropped bytes. A "\r\n"
  pair dropped whole adds 1 (`UartDriver.OverflowCountsCalls`). Counting
  dropped bytes would add `len - written`; the code adds 1 per truncated
  call.
- The USB receive callback does no overflow accounting and does not check
  a pending reset (`UsbDriver.RxCallback`).
- USB `dtty_init` leaves the overflow counters as they were
  (`UsbDriver.Init`). The serial `dtty_init` zeroes them.
- USB `dtty_flush` returns 0 at once. It does not wait until the write
  buffer is handed over.

## Model

| member | source | states |
|---|---|---|
| `Common.Inc32` | source/ubinos/bsp/arch/arm/cortexm/stm32/dtty_stm32_uart.c:51-53 | A `uint32_t` counter increment adds one, except that 0xFFFF_FFFF wraps to 0 |
| `Common.Add32Wraps` | source/ubinos/bsp/arch/arm/cortexm/stm32/dtty_stm32_uart.c:51-53 | `n` increments of a `uint32_t` counter add `n` modulo 2^32 |
| `Common.ToByte` | source/ubinos/bsp/arch/arm/cortexm/stm32/dtty_stm32_uart.c:434 | `(uint8_t) ch` yields a byte congruent to `ch` modulo 256, negative `ch` included |
| `Common.Expand` | source/ubinos/bsp/arch/arm/cortexm/stm32/dtty_stm32_uart.c:426-436 | One character becomes one or two bytes and always ends with the character's byte. It becomes two bytes exactly when auto-CR is on and the character is '\n', and the extra byte is a leading '\r' |
| `Common.ExpandAllAppend` | source/ubinos/bsp/arch/arm/cortexm/stm32/dtty_stm32_uart.c:586-590 | Expanding a string written in two pieces gives the same bytes as expanding it written at once |
| `Common.ExpandAllOff` | source/ubinos/bsp/arch/arm/cortexm/stm32/dtty_stm32_uart.c:432-436 | With auto-CR off every byte passes through unchanged |
| `Common.ExpandAllLength` | source/ubinos/bsp/arch/arm/cortexm/stm32/dtty_stm32_uart.c:426-431 | With auto-CR on, each '\n' adds exactly one byte |
| `Common.CollapseExpandAll` | source/ubinos/bsp/arch/arm/cortexm/stm32/dtty_stm32_uart.c:426-436 | Auto-CR expansion is undone by reading each "\r\n" back as '\n'. No '\n' is lost and no byte is invented |
| `RingBuffer.Ring.ContigLen` | source/ubinos/bsp/arch/arm/cortexm/stm32/dtty_stm32_usbd.c:522 | The contiguous run from the head is at most the queue length and stays inside the storage. It is empty only for an empty queue, and it is either the whole queue or reaches the storage end |
| `RingBuffer.Ring.Write` | source/ubinos/bsp/arch/arm/cortexm/stm32/dtty_stm32_uart.c:438-442 | A write keeps the old contents and appends a prefix of the argument. Either all of the argument is stored or the buffer is full, and capacity is never exceeded |
| `RingBuffer.Ring.Read` | source/ubinos/bsp/arch/arm/cortexm/stm32/dtty_stm32_usbd.c:125 | A read returns up to `n` of the oldest bytes. The bytes returned followed by those left are exactly the old contents, and the head advances modulo the capacity |
| `RingBuffer.FeedAppends` | source/ubinos/bsp/arch/arm/cortexm/stm32/dtty_stm32_uart.c:137 | Bytes pushed one at a time while there is room are all kept, behind those already queued |
| `RingBuffer.DrainTakesOldest` | source/ubinos/bsp/arch/arm/cortexm/stm32/dtty_stm32_uart.c:349 | Popping k bytes one at a time returns the k oldest in order and leaves the rest queued |
| `RingBuffer.FeedThenDrain` | source/ubinos/bsp/arch/arm/cortexm/stm32/dtty_stm32_uart.c:349-354 | FIFO: bytes pushed while there is room are popped back in the same order, after those already queued |
| `RingBuffer.ContigIsWholeUnlessWrapped` | source/ubinos/bsp/arch/arm/cortexm/stm32/dtty_stm32_usbd.c:519-524 | The contiguous run is the whole queue exactly when the queue has not wrapped |
| `RingBuffer.EchoEachStores` | source/ubinos/bsp/arch/arm/cortexm/stm32/dtty_stm32_uart.c:426-442 | Writing bytes one at a time, each expanded and cut to the room left, stores the old contents followed by as much of the whole expansion as there was room for |
| `RingBuffer.EchoDrainEchoes` | source/ubinos/bsp/arch/arm/cortexm/stm32/dtty_stm32_uart.c:349-371 | Echoing, in order, each byte that a drain pops is echoing the drained bytes |
| `RingBuffer.TruncationsZeroIffFits` | source/ubinos/bsp/arch/arm/cortexm/stm32/dtty_stm32_uart.c:438-442 | No one-character write of a string comes up short exactly when the string's whole expansion fits in the room there was |
| `RingBuffer.TruncationsWhenFull` | source/ubinos/bsp/arch/arm/cortexm/stm32/dtty_stm32_uart.c:438-442 | With no room, every character's write comes up short |
| `RingBuffer.OverflowAfterCounts` | source/ubinos/bsp/arch/arm/cortexm/stm32/dtty_stm32_uart.c:438-442 | Adding one, with wrap-around, for each write that comes up short adds the number of short writes to the counter modulo 2^32 |
| `UartDriver.Reset` | source/ubinos/bsp/arch/arm/cortexm/stm32/dtty_stm32_uart.c:62-96 | Check-then-act. With `need_reset` clear nothing changes. With it set, the flag is cleared, both restart flags are set and `reset_count` goes up by one. Buffers, counters and modes are untouched |
| `UartDriver.ResetIdempotent` | source/ubinos/bsp/arch/arm/cortexm/stm32/dtty_stm32_uart.c:67-95 | Two back-to-back resets equal one and add at most one to `reset_count` |
| `UartDriver.RxCallback` | source/ubinos/bsp/arch/arm/cortexm/stm32/dtty_stm32_uart.c:98-154 | A HAL error or a pending reset leaves everything unchanged. A pending rx restart aborts. A full buffer adds one to `rx_overflow_count` and keeps its contents. Otherwise exactly the received byte is appended, with a signal iff the buffer was empty and the kernel is active. `need_rx_restart` ends set iff the re-arm failed, and nothing else changes |
| `UartDriver.TxCallback` | source/ubinos/bsp/arch/arm/cortexm/stm32/dtty_stm32_uart.c:156-199 | With no error or reset pending, exactly the head byte is removed. If that empties the buffer, `need_tx_restart` is set and a signal is given when the kernel is active. Otherwise a failed re-arm aborts. Nothing else changes |
| `UartDriver.ErrCallback` | source/ubinos/bsp/arch/arm/cortexm/stm32/dtty_stm32_uart.c:201-204 | The error callback only sets `need_reset` |
| `UartDriver.ErrorThenResetCountsOnce` | source/ubinos/bsp/arch/arm/cortexm/stm32/dtty_stm32_uart.c:69-93 | After a transport error the next reset adds exactly one to `reset_count` and sets both restart flags. A further reset changes nothing |
| `UartDriver.Init` | source/ubinos/bsp/arch/arm/cortexm/stm32/dtty_stm32_uart.c:206-274 | Returns 0. It is a no-op in restricted context, with the kernel inactive, or when already initialised or initialising. Otherwise it ends initialised and not in init, with echo and auto-CR on, both overflow counters and `reset_count` 0, the read buffer empty, the write buffer kept, no reset pending, a tx restart pending, and an rx restart pending iff arming the first receive failed |
| `UartDriver.InitIdempotent` | source/ubinos/bsp/arch/arm/cortexm/stm32/dtty_stm32_uart.c:226-229 | A second `dtty_init` changes nothing |
| `UartDriver.Initialised` | source/ubinos/bsp/arch/arm/cortexm/stm32/dtty_stm32_uart.c:408-415 | The lazy-init preamble leaves an initialised driver alone. The driver is initialised afterwards iff it was before or `dtty_init` could run |
| `UartDriver.PutcLocked` | source/ubinos/bsp/arch/arm/cortexm/stm32/dtty_stm32_uart.c:419-466 | The write buffer becomes the ring's write of the expanded character: a prefix of it after the old contents, within capacity. `tx_overflow_count` rises by one iff fewer bytes were stored than requested. The result is -1 iff a restart was attempted and the HAL answered neither OK nor BUSY. `need_tx_restart` ends set iff the result is -1, and nothing else changes beyond the reset check |
| `UartDriver.Putc` | source/ubinos/bsp/arch/arm/cortexm/stm32/dtty_stm32_uart.c:391-474 | Returns -1 unchanged in restricted context or when the driver cannot be initialised. Otherwise it is the locked body run on the driver as the lazy `dtty_init` leaves it: the driver itself when already initialised, freshly initialised on the first call |
| `UartDriver.OverflowCountsCalls` | source/ubinos/bsp/arch/arm/cortexm/stm32/dtty_stm32_uart.c:438-442 | '\n' on a full buffer with auto-CR drops both bytes yet adds only one to `tx_overflow_count` |
| `UartDriver.ReadPrologue` | source/ubinos/bsp/arch/arm/cortexm/stm32/dtty_stm32_uart.c:331-347 | After the top of a read pass no reset is pending, the buffers are unchanged, and an rx restart remains pending iff one was due and the re-arm failed |
| `UartDriver.Echo` | source/ubinos/bsp/arch/arm/cortexm/stm32/dtty_stm32_uart.c:368-371 | With echo on, the returned byte goes through the `dtty_putc` body. With echo off nothing changes, and the read side is untouched |
| `UartDriver.GetcPass` | source/ubinos/bsp/arch/arm/cortexm/stm32/dtty_stm32_uart.c:329-371 | On a non-empty buffer a pass returns 0 with the oldest byte and removes exactly that byte. On an empty buffer a blocking pass waits and a non-blocking pass returns 0 with `*ch_p` unchanged. Either way the reset check and the receive re-arm leave `need_rx_restart` and `reset_count` as the read prologue does, and `rx_overflow_count` unchanged. With echo on the write buffer becomes the ring's write of the returned byte's expansion (all of it, or up to full), `tx_overflow_count` rises by one iff it was truncated, and `need_tx_restart` ends set iff a restart was due and the HAL answered neither OK nor BUSY. With echo off the write buffer and the counter are untouched and `need_tx_restart` is as the reset check left it |
| `UartDriver.Getc` | source/ubinos/bsp/arch/arm/cortexm/stm32/dtty_stm32_uart.c:291-379 | Returns -1 in restricted context or when not initialisable. Otherwise, on the driver as the lazy `dtty_init` leaves it (freshly initialised on the first call), it returns the lock's error when locking fails and runs a read pass when it succeeds |
| `UartDriver.NonblockingEmptyReadSucceeds` | source/ubinos/bsp/arch/arm/cortexm/stm32/dtty_stm32_uart.c:316-371 | A non-blocking read of an empty buffer returns 0, leaves `*ch_p` as it was, and with echo on queues that stale byte |
| `UartDriver.FlushCheck` | source/ubinos/bsp/arch/arm/cortexm/stm32/dtty_stm32_uart.c:502-513 | After the reset check the flush returns 0 iff the write buffer is empty, and otherwise waits |
| `UartDriver.FlushEnter` | source/ubinos/bsp/arch/arm/cortexm/stm32/dtty_stm32_uart.c:476-513 | Flush returns -1 in restricted context or when not initialisable, and returns 0 only with the write buffer empty. On a driver that is or becomes initialised it is the flush check on the initialised driver, and returns at once iff the write buffer (which `dtty_init` keeps) is empty |
| `UartDriver.FlushResume` | source/ubinos/bsp/arch/arm/cortexm/stm32/dtty_stm32_uart.c:515-543 | A flush pass after a wait returns iff the write buffer is empty, and then returns 0. Otherwise it waits again with the buffers and counters unchanged and no reset pending. `reset_count` and `need_rx_restart` are as the reset check leaves them. `need_tx_restart` ends set whenever a pending reset ran; with no reset pending it ends set iff it was set and the re-arm failed |
| `UartDriver.PutcLockedStores` | source/ubinos/bsp/arch/arm/cortexm/stm32/dtty_stm32_uart.c:426-442 | `dtty_putc` stores the leading `min(len, free)` bytes of the expanded character after the old contents, and the free space shrinks by that many. `tx_overflow_count` rises by one iff the expansion did not fit |
| `UartDriver.PutAll` | source/ubinos/bsp/arch/arm/cortexm/stm32/dtty_stm32_uart.c:586-590 | The `dtty_putc` loop of `dtty_putn` keeps the driver invariant, the shared init/in_init/echo/autocr flags and the read buffer |
| `UartDriver.PutAllStores` | source/ubinos/bsp/arch/arm/cortexm/stm32/dtty_stm32_uart.c:586-590 | For every string, the loop leaves the write buffer holding the old contents followed by as much of the expanded string as there was room for, which is what one truncating write of the whole expansion stores. When all of it fits, no overflow is counted |
| `UartDriver.PutAllKeeps` | source/ubinos/bsp/arch/arm/cortexm/stm32/dtty_stm32_uart.c:586-590 | The loop keeps `rx_overflow_count`. An empty loop changes nothing. A non-empty one leaves no reset pending, and `reset_count` and `need_rx_restart` as one reset check leaves them |
| `UartDriver.PutAllCounts` | source/ubinos/bsp/arch/arm/cortexm/stm32/dtty_stm32_uart.c:586-590 | The loop adds to `tx_overflow_count`, modulo 2^32, the number of characters whose expanded write came up short, each cut to the room the earlier ones left |
| `UartDriver.Putn` | source/ubinos/bsp/arch/arm/cortexm/stm32/dtty_stm32_uart.c:553-596 | Returns -1 in restricted context or when not initialisable, -2 for NULL, -3 for a negative length and `len` otherwise. On a driver that is or becomes initialised, the write buffer gains the leading part of the expanded string that fits, with auto-CR as the lazy `dtty_init` leaves it, and no overflow is counted when all of it fits. The shared flags, the read buffer and `rx_overflow_count` are as after that initialisation. With `len` 0 the driver ends exactly so; otherwise no reset is pending, and `reset_count` and `need_rx_restart` are as one reset check of it leaves them |
| `UartDriver.PutnCounts` | source/ubinos/bsp/arch/arm/cortexm/stm32/dtty_stm32_uart.c:586-590 | On a driver that is or becomes initialised, `dtty_putn` adds to `tx_overflow_count` as the lazy `dtty_init` leaves it, modulo 2^32, the number of characters whose expanded write came up short |
| `UartDriver.PutnExpandsNewline` | source/ubinos/bsp/arch/arm/cortexm/stm32/dtty_stm32_uart.c:586-590 | `dtty_putn("X\n", 2)` with auto-CR into an empty write buffer queues "X\r\n" and returns 2 |
| `UartDriver.Kbhit` | source/ubinos/bsp/arch/arm/cortexm/stm32/dtty_stm32_uart.c:598-632 | Returns -1 in restricted context or when not initialisable. On an initialised driver it returns 1 iff bytes are pending and 0 iff none are, changing nothing. A driver that can initialise ends exactly as the lazy `dtty_init` leaves it, and the first call returns 0 |
| `UartDriver.ReceiveThenReadInOrder` | source/ubinos/bsp/arch/arm/cortexm/stm32/dtty_stm32_uart.c:124-143 | "ab\n" received byte by byte is read back as 'a', 'b', '\n', after which `dtty_kbhit` returns 0 |
| `UartDriver.TxAllSends` | source/ubinos/bsp/arch/arm/cortexm/stm32/dtty_stm32_uart.c:156-199 | k error-free transmit interrupts with accepted re-arms remove exactly the k oldest queued bytes and never abort. While bytes remain nothing else changes; the interrupt that empties the buffer sets `need_tx_restart` and gives the write semaphore |
| `UartDriver.FlushAfterSend` | source/ubinos/bsp/arch/arm/cortexm/stm32/dtty_stm32_uart.c:515-543 | A waiting flush returns exactly once the transmit interrupts have sent everything that was queued, and then returns 0 |
| `UartDriver.RxAllAppends` | source/ubinos/bsp/arch/arm/cortexm/stm32/dtty_stm32_uart.c:98-154 | Bytes received while there is room, with no reset or rx restart pending and the re-arm accepted, are all queued behind those already waiting, in arrival order, and nothing else changes |
| `UartDriver.ReadAllTakesOldest` | source/ubinos/bsp/arch/arm/cortexm/stm32/dtty_stm32_uart.c:349-354 | k blocking reads of a buffer holding at least k bytes return its k oldest bytes in order and leave the rest queued |
| `UartDriver.RxAllFeeds` | source/ubinos/bsp/arch/arm/cortexm/stm32/dtty_stm32_uart.c:124-143 | The receive interrupts change the read buffer exactly as the ring's one-byte producer does, counting an overflow only for a byte that found it full, and change nothing else |
| `UartDriver.ReadAllDrains` | source/ubinos/bsp/arch/arm/cortexm/stm32/dtty_stm32_uart.c:349-354 | Blocking reads return exactly the bytes the ring's one-byte consumer pops, and leave the read buffer as it does |
| `UartDriver.ReadAllEchoes` | source/ubinos/bsp/arch/arm/cortexm/stm32/dtty_stm32_uart.c:349-371 | With echo on, blocking reads leave the write buffer as echoing, in order, each byte the read buffer's drain pops, each expanded and cut to the room left |
| `UartDriver.FirstPutcStores` | source/ubinos/bsp/arch/arm/cortexm/stm32/dtty_stm32_uart.c:408-415 | The first `dtty_putc` after boot initialises the driver (echo and auto-CR on, read buffer empty) and stores the fitting part of the character expanded with auto-CR. It returns -1 iff the transmit arm that `dtty_init` leaves pending fails |
| `UartDriver.FirstGetcWaits` | source/ubinos/bsp/arch/arm/cortexm/stm32/dtty_stm32_uart.c:291-371 | The first blocking `dtty_getc` after boot initialises the driver, finds the read buffer empty and waits. The receive stays to be re-armed iff both the arm in `dtty_init` and the re-arm failed |
| `UartDriver.FirstPutnStores` | source/ubinos/bsp/arch/arm/cortexm/stm32/dtty_stm32_uart.c:553-596 | The first `dtty_putn` after boot initialises the driver, returns the length, stores the fitting part of the string expanded with auto-CR, and counts no overflow when all of it fits |
| `UartDriver.ReceiveThenRead` | source/ubinos/bsp/arch/arm/cortexm/stm32/dtty_stm32_uart.c:124-143 | FIFO end to end: bytes received while there is room are read back after those already waiting, in arrival order. `dtty_kbhit` returns 1 once a byte has arrived and 0 once all have been read. With echo on, the write buffer ends holding its old contents followed by as much of the read bytes' expansion as there was room for |
| `UsbDriver.PowerOn` | source/ubinos/bsp/arch/arm/cortexm/stm32/dtty_stm32_usbd.c:43-61 | The start state with empty buffers and nothing in flight satisfies the driver invariant |
| `UsbDriver.Reset` | source/ubinos/bsp/arch/arm/cortexm/stm32/dtty_stm32_usbd.c:66-99 | Check-then-act. With `need_reset` set, the flag is cleared, `need_tx_restart` is set, `reset_count` goes up by one and the write semaphore is given. Otherwise nothing changes and nothing is signalled |
| `UsbDriver.ResetIdempotent` | source/ubinos/bsp/arch/arm/cortexm/stm32/dtty_stm32_usbd.c:70-96 | A second reset right after the first changes nothing and signals nothing |
| `UsbDriver.ResetValid` | source/ubinos/bsp/arch/arm/cortexm/stm32/dtty_stm32_usbd.c:70-73 | A reset keeps `write_trying_size` within the write buffer |
| `UsbDriver.RxCallback` | source/ubinos/bsp/arch/arm/cortexm/stm32/dtty_stm32_usbd.c:101-116 | The packet is appended up to the free space, with a signal iff the buffer was empty and the semaphore exists. Overflow counters, flags and everything else stay unchanged |
| `UsbDriver.TxCallback` | source/ubinos/bsp/arch/arm/cortexm/stm32/dtty_stm32_usbd.c:118-160 | A no-op when nothing is in flight. Otherwise exactly `write_trying_size` bytes leave the head. On drain, `need_tx_restart` is set, the in-flight size is zeroed and the write semaphore is given. If data remains, the in-flight size becomes the remaining length: on OK a signal is given iff that length is below half the capacity, and on failure a restart becomes pending, the size is zeroed and a signal is given. The invariant is kept |
| `UsbDriver.TxResubmitOverrunsIffWrapped` | source/ubinos/bsp/arch/arm/cortexm/stm32/dtty_stm32_usbd.c:127-131 | The resubmitted transfer runs past the storage end, and exceeds the contiguous run, exactly when the queue has wrapped |
| `UsbDriver.TxResubmitOverrunWitness` | source/ubinos/bsp/arch/arm/cortexm/stm32/dtty_stm32_usbd.c:129-131 | A valid state whose resubmitted transfer ends 10 bytes past the end of the write buffer's storage |
| `UsbDriver.Init` | source/ubinos/bsp/arch/arm/cortexm/stm32/dtty_stm32_usbd.c:162-216 | Returns 0. It is a no-op unless it can run. Otherwise it ends initialised with semaphores, echo and auto-CR on, `reset_count` 0, the read buffer empty, no reset pending, a tx restart pending and the write semaphore given. The overflow counters, the write and side buffers, and the in-flight size are all kept |
| `UsbDriver.InitIdempotent` | source/ubinos/bsp/arch/arm/cortexm/stm32/dtty_stm32_usbd.c:179-182 | A second `dtty_init` changes nothing |
| `UsbDriver.Initialised` | source/ubinos/bsp/arch/arm/cortexm/stm32/dtty_stm32_usbd.c:343-350 | The lazy-init preamble leaves an initialised driver alone and never touches the write or side buffers |
| `UsbDriver.PutcLocked` | source/ubinos/bsp/arch/arm/cortexm/stm32/dtty_stm32_usbd.c:354-403 | The write buffer becomes the ring's write of the expanded character: a prefix of it after the old contents. The overflow counter rises by one iff the write was truncated. When a restart is due: on OK the flag is cleared and the whole queue is in flight; on failure the result is -1, the flag is restored and the in-flight size is zeroed. Otherwise the result is 0 and nothing is submitted |
| `UsbDriver.PutcSubmitOverrunsIffWrapped` | source/ubinos/bsp/arch/arm/cortexm/stm32/dtty_stm32_usbd.c:379-385 | The transfer `dtty_putc` submits runs past the storage end exactly when the queue has wrapped |
| `UsbDriver.Putc` | source/ubinos/bsp/arch/arm/cortexm/stm32/dtty_stm32_usbd.c:317-411 | In restricted context it returns 0 and appends the raw byte, with no CR expansion, to the side buffer, or counts an overflow when that buffer is full. In task context it returns -1 when not initialisable. Otherwise it runs the locked body on the driver as the lazy `dtty_init` leaves it (freshly initialised on the first call), passing on that initialisation's semaphore give. It never touches the side buffer in task context |
| `UsbDriver.Echo` | source/ubinos/bsp/arch/arm/cortexm/stm32/dtty_stm32_usbd.c:294-297 | With echo on, the returned byte goes through the `dtty_putc` body. With echo off nothing changes |
| `UsbDriver.GetcPass` | source/ubinos/bsp/arch/arm/cortexm/stm32/dtty_stm32_usbd.c:268-297 | On a non-empty buffer a pass returns 0 with the oldest byte and removes exactly it. On an empty buffer it waits if blocking, and if non-blocking it returns 0 with `*ch_p` unchanged. The pass signals exactly what its reset check gives, and leaves `reset_count` as that check does and `rx_overflow_count` unchanged. With echo on the write buffer becomes the ring's write of the returned byte's expansion (all of it, or up to full), the overflow counter rises by one iff it was truncated, and a due restart either puts the whole queue in flight (OK) or stays pending with nothing in flight. With echo off the write side is untouched |
| `UsbDriver.Getc` | source/ubinos/bsp/arch/arm/cortexm/stm32/dtty_stm32_usbd.c:233-305 | Returns -1 in restricted context or when not initialisable. Otherwise, on the driver as the lazy `dtty_init` leaves it (freshly initialised on the first call), it returns the lock's error when locking fails and runs a read pass when it succeeds, adding the initialisation's semaphore give |
| `UsbDriver.NonblockingEmptyReadSucceeds` | source/ubinos/bsp/arch/arm/cortexm/stm32/dtty_stm32_usbd.c:255-297 | A non-blocking read of an empty buffer returns 0, leaves `*ch_p` as it was, and echoes that stale byte |
| `UsbDriver.ReceiveThenReadInOrder` | source/ubinos/bsp/arch/arm/cortexm/stm32/dtty_stm32_usbd.c:105-113 | A packet "ab\n" is read back as 'a', 'b', '\n', after which `dtty_kbhit` returns 0 |
| `UsbDriver.PutcLockedStores` | source/ubinos/bsp/arch/arm/cortexm/stm32/dtty_stm32_usbd.c:362-377 | `dtty_putc` stores the leading `min(len, free)` bytes of the expanded character after the old contents, and the free space shrinks by that many. The overflow counter rises by one iff the expansion did not fit |
| `UsbDriver.PutAll` | source/ubinos/bsp/arch/arm/cortexm/stm32/dtty_stm32_usbd.c:458-462 | The `dtty_putc` loop of `dtty_putn` keeps the driver invariant, the shared init/in_init/echo/autocr flags, the read buffer and the side buffer |
| `UsbDriver.PutAllStores` | source/ubinos/bsp/arch/arm/cortexm/stm32/dtty_stm32_usbd.c:458-462 | For every string, the loop leaves the write buffer holding the old contents followed by as much of the expanded string as there was room for, which is what one truncating write of the whole expansion stores. When all of it fits, no overflow is counted |
| `UsbDriver.PutAllKeeps` | source/ubinos/bsp/arch/arm/cortexm/stm32/dtty_stm32_usbd.c:458-462 | The loop keeps `rx_overflow_count` and the semaphores. An empty loop changes nothing and signals nothing. A non-empty one leaves no reset pending and `reset_count` as one reset check leaves it |
| `UsbDriver.PutAllCounts` | source/ubinos/bsp/arch/arm/cortexm/stm32/dtty_stm32_usbd.c:458-462 | The loop adds to the overflow counter, modulo 2^32, the number of characters whose expanded write came up short, each cut to the room the earlier ones left |
| `UsbDriver.Putn` | source/ubinos/bsp/arch/arm/cortexm/stm32/dtty_stm32_usbd.c:418-468 | Returns -2 for NULL and -3 for a negative length, both before the context test. In restricted context the leading bytes that fit go to the side buffer, the count is returned, and the counter rises by one iff the write was truncated. In task context it returns -1 when not initialisable and `len` otherwise. On a driver that is or becomes initialised, the write buffer gains the leading part of the expanded string that fits, with auto-CR as the lazy `dtty_init` leaves it, and no overflow is counted when all of it fits. The shared flags, the read buffer, `rx_overflow_count` and the semaphores are as after that initialisation. With `len` 0 the driver ends exactly so; otherwise no reset is pending and `reset_count` is as one reset check of it leaves it |
| `UsbDriver.PutnCounts` | source/ubinos/bsp/arch/arm/cortexm/stm32/dtty_stm32_usbd.c:458-462 | In task context, on a driver that is or becomes initialised, `dtty_putn` adds to the overflow counter as the lazy `dtty_init` leaves it, modulo 2^32, the number of characters whose expanded write came up short |
| `UsbDriver.RxAllAppends` | source/ubinos/bsp/arch/arm/cortexm/stm32/dtty_stm32_usbd.c:101-116 | Packets received while there is room are all queued behind the bytes already waiting, in arrival order, and nothing else changes |
| `UsbDriver.ReadAllTakesOldest` | source/ubinos/bsp/arch/arm/cortexm/stm32/dtty_stm32_usbd.c:270-281 | k blocking reads of a buffer holding at least k bytes return its k oldest bytes in order and leave the rest queued |
| `UsbDriver.ReadAllDrains` | source/ubinos/bsp/arch/arm/cortexm/stm32/dtty_stm32_usbd.c:270-281 | Blocking reads return exactly the bytes the ring's one-byte consumer pops, and leave the read buffer as it does |
| `UsbDriver.ReadAllEchoes` | source/ubinos/bsp/arch/arm/cortexm/stm32/dtty_stm32_usbd.c:270-297 | With echo on, blocking reads leave the write buffer as echoing, in order, each byte the read buffer's drain pops, each expanded and cut to the room left |
| `UsbDriver.FirstPutcStores` | source/ubinos/bsp/arch/arm/cortexm/stm32/dtty_stm32_usbd.c:343-350 | The first task-context `dtty_putc` after boot initialises the driver (echo and auto-CR on, read buffer empty, write semaphore given) and stores the fitting part of the character expanded with auto-CR. The whole queue is submitted, and the result is -1 iff the USB stack refuses it |
| `UsbDriver.FirstGetcWaits` | source/ubinos/bsp/arch/arm/cortexm/stm32/dtty_stm32_usbd.c:233-284 | The first blocking `dtty_getc` after boot initialises the driver, gives the write semaphore, finds the read buffer empty and waits |
| `UsbDriver.FirstPutnStores` | source/ubinos/bsp/arch/arm/cortexm/stm32/dtty_stm32_usbd.c:418-468 | The first task-context `dtty_putn` after boot initialises the driver, returns the length, and stores the fitting part of the string expanded with auto-CR |
| `UsbDriver.ReceiveThenRead` | source/ubinos/bsp/arch/arm/cortexm/stm32/dtty_stm32_usbd.c:101-116 | FIFO end to end: packets received while there is room are read back after the bytes already waiting, in arrival order. `dtty_kbhit` returns 1 once a non-empty packet has arrived and 0 once every byte has been read. With echo on, the write buffer ends holding its old contents followed by as much of the read bytes' expansion as there was room for |
| `UsbDriver.SubmitThenComplete` | source/ubinos/bsp/arch/arm/cortexm/stm32/dtty_stm32_usbd.c:118-160 | A character written while the transmitter is idle is submitted with everything queued before it. That transfer's completion empties the write buffer, leaves the transmitter idle and gives the write semaphore |
| `UsbDriver.Kbhit` | source/ubinos/bsp/arch/arm/cortexm/stm32/dtty_stm32_usbd.c:470-504 | Returns -1 in restricted context or when not initialisable. On an initialised driver it returns 1 iff bytes are pending and 0 iff none are, changing nothing. A driver that can initialise ends exactly as the lazy `dtty_init` leaves it, with its semaphore give, and the first call returns 0 |
| `UsbDriver.Flush` | source/ubinos/bsp/arch/arm/cortexm/stm32/dtty_stm32_usbd.c:413-416 | Returns 0 at once and changes nothing |
| `UsbDriver.DrainRun` | source/ubinos/bsp/arch/arm/cortexm/stm32/dtty_stm32_usbd.c:521-524 | One drain turn removes exactly the contiguous run at the head of the side buffer, whatever `dtty_putn` answered. A driver that cannot be initialised is otherwise untouched. Otherwise its shared flags and read buffer end as its lazy initialisation leaves them, and when the bytes fit, that run, expanded, is appended to the write buffer |
| `UsbDriver.WriteProcess` | source/ubinos/bsp/arch/arm/cortexm/stm32/dtty_stm32_usbd.c:506-529 | In task context the side buffer ends empty. The runs fed are non-empty and no longer than the capacity, and together they are the side buffer's contents in order. A driver that cannot be initialised loses the runs and is otherwise untouched. The first run fed to a driver that can initialise initialises it. When the side buffer's expansion fits, the write buffer gains exactly that expansion. In restricted context nothing happens |

## Left out

- HAL and USB-stack calls (`HAL_UART_*`, `USBD_*`, clock and power enables, NVIC priority, the baud-rate and framing constants) are not modelled. Only the status they return is an input, one per call site. The HAL de-init and init inside the serial reset are asserted to succeed by the source, and the model takes them to succeed.
- Mutexes, semaphores and the timed waits are not modelled as objects. A lock's result is an input where the source uses it (`dtty_getc`). Semaphore gives are result flags, and each blocking loop is one pass per call.
- `bsp_abortsystem` is the `abort` field of a callback's result, not termination.
- `bsp_isintr()`, `_bsp_critcount` and `_bsp_kernel_active` are boolean inputs (`Context`, and `kernelActive` for the serial callbacks).
- The `cbuf` implementation is not part of this model. The abstract ring's assumptions are stated above. In particular, the serial receive path's in-place write by the HAL at the tail slot, and what that slot holds when the buffer is full, are not modelled.
- `dtty_enable`, `dtty_disable` and `dtty_geterror` return 0 and touch nothing, and the serial `dtty_write_process` is empty, so none of them is modelled.
- The initial values of `_g_bsp_dtty_echo` and `_g_bsp_dtty_autocr` are defined outside these files. `UsbDriver.PowerOn` takes them as a parameter.
- Concurrency between task-context callers is not modelled. Each transition runs atomically, and interleavings appear only as sequences of transitions.
- UsbDriver.Flush: it is the identity, so its contract states all of it and no separate lemma relates it to the transmit path.

=== FILE: common.dfy ===
/** Types and small helpers shared by both console backends (the interrupt-mode
    UART backend and the USB CDC backend): bytes, wrapping 32-bit counters,
    the status codes returned by the vendor stacks, the flags the two backends
    share, the shape of a transition's outcome, and the newline expansion that
    `dtty_putc` performs. */
module Common {

  /** An 8-bit value as held in the ring buffers (`uint8_t`). */
  type byte = x: int | 0 <= x < 256

  /** The modulus of the source's `uint32_t` counters. */
  const WORD: int := 0x1_0000_0000

  type u32 = x: int | 0 <= x < WORD

  /** `x++` on a `uint32_t` counter: it wraps to 0 after 0xFFFF_FFFF. */
  function Inc32(x: u32): (r: u32)
    ensures x < WORD - 1 ==> r == x + 1
    ensures x == WORD - 1 ==> r == 0
  {
    (x + 1) % WORD
  }

  /** `n` increments of a `uint32_t` counter, one after another. */
  function Add32(x: u32, n: nat): u32
    decreases n
  {
    if n == 0 then x else Add32(Inc32(x), n - 1)
  }

  /** The increments add up modulo 2^32. */
  lemma {:induction false} Add32Wraps(x: u32, n: nat)
    ensures Add32(x, n) == (x + n) % WORD
    decreases n
  {
    if n > 0 {
      Add32Wraps(Inc32(x), n - 1);
    }
  }

  /** An increment that may or may not happen, followed by `n` more. */
  lemma Add32Step(x: u32, b: bool, n: nat)
    ensures Add32(if b then Inc32(x) else x, n) == Add32(x, (if b then 1 else 0) + n)
  {
  }

  const LF: byte := 10  // '\n'
  const CR: byte := 13  // '\r'

  /** The C conversion `(uint8_t) ch` of an `int`: reduction modulo 256, which
      is what Dafny's Euclidean `%` computes for negative operands as well. */
  function ToByte(ch: int): (b: byte)
    ensures (ch - b) % 256 == 0
  {
    ch % 256
  }

  datatype Option<T> = None | Some(value: T)

  /** `HAL_StatusTypeDef` of the STM32 HAL. */
  datatype HalStatus = HalOk | HalError | HalBusy | HalTimeout

  /** `USBD_StatusTypeDef` of the STM32 USB device library. */
  datatype UsbdStatus = UsbdOk | UsbdBusy | UsbdFail

  /** The flags both backends share: `_g_bsp_dtty_init`, `_g_bsp_dtty_in_init`,
      `_g_bsp_dtty_echo` and `_g_bsp_dtty_autocr`. */
  datatype Globals = Globals(init: bool, inInit: bool, echo: bool, autocr: bool)

  /** What an entry point observes about where it runs: `restricted` is
      `bsp_isintr() || 0 != _bsp_critcount`, `kernelActive` is
      `_bsp_kernel_active`. */
  datatype Context = Context(restricted: bool, kernelActive: bool)

  /** Which wake-up semaphores a transition gave (read side, write side). */
  datatype Signals = Signals(rsem: bool, wsem: bool) {
    function Or(other: Signals): Signals {
      Signals(rsem || other.rsem, wsem || other.wsem)
    }
  }

  const NoSignal := Signals(false, false)

  /** Outcome of a callback (`void` in the source); `abort` is a call of
      `bsp_abortsystem`, and `s` is the state at the point the call ended. */
  datatype Step<S> = Step(s: S, sig: Signals, abort: bool)

  /** Outcome of an entry point that returns an `int` status. */
  datatype Call<S> = Call(s: S, ret: int, sig: Signals)

  /** Outcome of one pass of a blocking loop: either the entry point returns,
      or it waits on a semaphore and will run the next pass afterwards. */
  datatype Poll<S> = Ready(s: S, ret: int, sig: Signals) | Waiting(s: S, sig: Signals)

  /** The result of a read: the loop's outcome and the value of `*ch_p`. */
  datatype Got<S> = Got(p: Poll<S>, ch: byte)

  /** The result of several reads in a row: the state afterwards and the
      bytes read, in order. */
  datatype Reads<S> = Reads(s: S, bytes: seq<byte>)

  /** The bytes `dtty_putc` builds in `data[]` for one character: "\r\n" for
      '\n' when auto-CR is on, otherwise the character cast to `uint8_t`. */
  function Expand(autocr: bool, ch: int): (d: seq<byte>)
    ensures 1 <= |d| <= 2
    ensures d[|d| - 1] == ToByte(ch)
    ensures |d| == 2 <==> autocr && ch == LF as int
    ensures |d| == 2 ==> d[0] == CR
  {
    if autocr && ch == LF as int then [CR, LF] else [ToByte(ch)]
  }

  /** The bytes a run of `dtty_putc` calls builds for a whole string. */
  function ExpandAll(autocr: bool, str: seq<byte>): seq<byte>
  {
    if |str| == 0 then [] else Expand(autocr, str[0] as int) + ExpandAll(autocr, str[1..])
  }

  /** Number of '\n' bytes in a string. */
  function CountLF(str: seq<byte>): nat
  {
    if |str| == 0 then 0 else (if str[0] == LF then 1 else 0) + CountLF(str[1..])
  }

  /** The reading a terminal gives expanded output: every "\r\n" pair is
      taken back to '\n'; every other byte stands for itself. */
  function Collapse(d: seq<byte>): seq<byte>
  {
    if |d| == 0 then []
    else if |d| >= 2 && d[0] == CR && d[1] == LF then [LF] + Collapse(d[2..])
    else [d[0]] + Collapse(d[1..])
  }

  /** Expansion distributes over concatenation, so a string written in
      several pieces yields the same bytes as written at once. */
  lemma {:induction false} ExpandAllAppend(autocr: bool, a: seq<byte>, b: seq<byte>)
    ensures ExpandAll(autocr, a + b) == ExpandAll(autocr, a) + ExpandAll(autocr, b)
  {
    if |a| == 0 {
      assert a + b == b;
    } else {
      assert (a + b)[1..] == a[1..] + b;
      ExpandAllAppend(autocr, a[1..], b);
    }
  }

  /** With auto-CR off every byte passes through unchanged. */
  lemma {:induction false} ExpandAllOff(str: seq<byte>)
    ensures ExpandAll(false, str) == str
  {
    if |str| > 0 {
      ExpandAllOff(str[1..]);
    }
  }

  /** With auto-CR on, each '\n' adds exactly one byte. */
  lemma {:induction false} ExpandAllLength(str: seq<byte>)
    ensures |ExpandAll(true, str)| == |str| + CountLF(str)
  {
    if |str| > 0 {
      ExpandAllLength(str[1..]);
    }
  }

  /** An expanded string never starts with a bare '\n'. */
  lemma ExpandAllHead(str: seq<byte>)
    ensures |ExpandAll(true, str)| > 0 ==> ExpandAll(true, str)[0] != LF
  {
  }

  /** Expansion with auto-CR on is undone by `Collapse`: no '\n' is lost and
      no byte is invented, including a '\r' that the caller wrote itself. */
  lemma {:induction false} CollapseExpandAll(str: seq<byte>)
    ensures Collapse(ExpandAll(true, str)) == str
  {
    if |str| > 0 {
      var rest := ExpandAll(true, str[1..]);
      CollapseExpandAll(str[1..]);
      ExpandAllHead(str[1..]);
      if str[0] == LF {
        assert ExpandAll(true, str) == [CR, LF] + rest;
        assert ([CR, LF] + rest)[2..] == rest;
      } else {
        assert ExpandAll(true, str) == [str[0]] + rest;
        assert ([str[0]] + rest)[1..] == rest;
      }
    }
  }
}

=== FILE: ring.dfy ===
/** The bounded byte FIFO (`cbuf`) both backends are built on. Its
    implementation is not part of this model, so it is described abstractly:
    storage of `cap` slots, the index `head` of the oldest byte, and the queued
    bytes `data`, oldest first. The queued bytes occupy the slots from `head`
    onwards, wrapping to slot 0 after slot `cap - 1`.

    The assumptions made about `cbuf` are: `cbuf_write` stores the leading
    `min(len, free)` bytes of its argument and reports that count;
    `cbuf_read` of `n` bytes removes `min(n, len)` bytes from the head; and
    `cbuf_clear` empties the buffer and keeps the head slot. */
module RingBuffer {
  import opened Common

  function Min(a: nat, b: nat): nat {
    if a <= b then a else b
  }

  /** `after` is `before` followed by the first `n` bytes of `src`. */
  predicate AppendsPrefix(after: seq<byte>, before: seq<byte>, src: seq<byte>, n: nat) {
    n <= |src| && after == before + src[..n]
  }

  /** A `cbuf_write` result: the buffer afterwards and the count written. */
  datatype Written = Written(ring: Ring, count: nat)

  /** A `cbuf_read` result: the buffer afterwards and the bytes removed. */
  datatype Taken = Taken(ring: Ring, bytes: seq<byte>)

  datatype Ring = Ring(cap: nat, head: nat, data: seq<byte>) {

    predicate Valid() {
      0 < cap && head < cap && |data| <= cap
    }

    /** `cbuf_get_len` */
    function Len(): nat {
      |data|
    }

    /** `cbuf_is_full` */
    predicate IsFull() {
      |data| >= cap
    }

    function Free(): nat
      requires Valid()
    {
      cap - |data|
    }

    /** `cbuf_get_contig_len`: the queued bytes that sit in one address range
        starting at the head slot, before the storage wraps. */
    function ContigLen(): (n: nat)
      requires Valid()
      ensures n <= Len() && head + n <= cap
      ensures n == 0 <==> Len() == 0
      ensures n == Len() || head + n == cap
    {
      Min(|data|, cap - head)
    }

    /** The queued bytes run past the end of the storage. */
    predicate Wrapped() {
      head + |data| > cap
    }

    /** `cbuf_write(buf, bytes, |bytes|, &written)` */
    function Write(bytes: seq<byte>): (w: Written)
      requires Valid()
      ensures w.ring.Valid() && w.ring.cap == cap && w.ring.head == head
      ensures AppendsPrefix(w.ring.data, data, bytes, w.count)
      ensures w.count == |bytes| || w.ring.IsFull()
    {
      var n := Min(|bytes|, cap - |data|);
      Written(this.(data := data + bytes[..n]), n)
    }

    /** `cbuf_read(buf, out, n, NULL)` */
    function Read(n: nat): (t: Taken)
      requires Valid()
      ensures t.ring.Valid() && t.ring.cap == cap
      ensures t.bytes + t.ring.data == data
      ensures |t.bytes| == Min(n, |data|)
      ensures t.ring.head == (head + |t.bytes|) % cap
    {
      var k := Min(n, |data|);
      assert data[..k] + data[k..] == data;
      Taken(Ring(cap, (head + k) % cap, data[k..]), data[..k])
    }

    /** `cbuf_clear` */
    function Clear(): (r: Ring)
      requires Valid()
      ensures r.Valid() && r.cap == cap && r.head == head && r.Len() == 0
    {
      this.(data := [])
    }
  }

  function EmptyRing(cap: nat): (r: Ring)
    requires 0 < cap
    ensures r.Valid() && r.cap == cap && r.Len() == 0
  {
    Ring(cap, 0, [])
  }

  /** A producer pushing bytes one at a time, as the serial receive callback
      does. */
  function Feed(r: Ring, bs: seq<byte>): (r': Ring)
    requires r.Valid()
    ensures r'.Valid() && r'.cap == r.cap
    decreases |bs|
  {
    if |bs| == 0 then r else Feed(r.Write([bs[0]]).ring, bs[1..])
  }

  /** A consumer popping `k` bytes one at a time, as `dtty_getc` does;
      returns the buffer afterwards and the bytes in the order popped. */
  function Drain(r: Ring, k: nat): (t: Taken)
    requires r.Valid()
    ensures t.ring.Valid() && t.ring.cap == r.cap
    decreases k
  {
    if k == 0 || r.Len() == 0 then Taken(r, [])
    else
      var first := r.Read(1);
      var rest := Drain(first.ring, k - 1);
      Taken(rest.ring, first.bytes + rest.bytes)
  }

  /** Bytes pushed one at a time while there is room are all kept, behind
      those already queued. */
  lemma {:induction false} FeedAppends(r: Ring, bs: seq<byte>)
    requires r.Valid() && |bs| <= r.Free()
    ensures Feed(r, bs).data == r.data + bs
    decreases |bs|
  {
    if |bs| > 0 {
      var w := r.Write([bs[0]]);
      FeedAppends(w.ring, bs[1..]);
      assert [bs[0]] + bs[1..] == bs;
    }
  }

  /** Popping one byte at a time returns the queued bytes oldest first and
      leaves the rest queued. */
  lemma {:induction false} DrainTakesOldest(r: Ring, k: nat)
    requires r.Valid() && k <= r.Len()
    ensures Drain(r, k).bytes == r.data[..k]
    ensures Drain(r, k).ring.data == r.data[k..]
    decreases k
  {
    if k > 0 {
      var first := r.Read(1);
      assert first.bytes == [r.data[0]] && first.ring.data == r.data[1..] by {
        assert first.bytes + first.ring.data == r.data && |first.bytes| == 1;
      }
      var rest := Drain(first.ring, k - 1);
      assert Drain(r, k) == Taken(rest.ring, first.bytes + rest.bytes);
      DrainTakesOldest(first.ring, k - 1);
      assert r.data[1..][k - 1..] == r.data[k..];
      assert r.data[..k] == [r.data[0]] + r.data[1..][..k - 1];
    }
  }

  /** The FIFO property: bytes pushed while there is room come back, after
      the bytes already queued, in the order they were pushed. */
  lemma FeedThenDrain(r: Ring, bs: seq<byte>)
    requires r.Valid() && |bs| <= r.Free()
    ensures Drain(Feed(r, bs), r.Len() + |bs|).bytes == r.data + bs
    ensures Drain(Feed(r, bs), r.Len() + |bs|).ring.Len() == 0
  {
    FeedAppends(r, bs);
    var f := Feed(r, bs);
    DrainTakesOldest(f, r.Len() + |bs|);
    assert f.data[..r.Len() + |bs|] == f.data;
  }

  /** Two truncating writes store what one truncating write of both pieces
      stores: `a` cut to the room `f`, then `b` cut to the room left, is
      `a + b` cut to `f`. */
  lemma TruncateConcat(w0: seq<byte>, w1: seq<byte>, w2: seq<byte>, a: seq<byte>, b: seq<byte>, f: nat)
    requires w1 == w0 + a[..Min(|a|, f)]
    requires w2 == w1 + b[..Min(|b|, f - Min(|a|, f))]
    ensures w2 == w0 + (a + b)[..Min(|a + b|, f)]
  {
    if f < |a| {
      assert (a + b)[..f] == a[..f];
    } else {
      assert (a + b)[..Min(|a + b|, f)] == a + b[..Min(|b|, f - |a|)];
    }
  }

  /** The write buffer after echoing `chars` one at a time: each byte
      expanded and written with `cbuf_write`'s truncation. */
  function EchoEach(r: Ring, autocr: bool, chars: seq<byte>): (w: Ring)
    requires r.Valid()
    ensures w.Valid() && w.cap == r.cap && w.head == r.head
    decreases |chars|
  {
    if |chars| == 0 then r
    else EchoEach(r.Write(Expand(autocr, chars[0] as int)).ring, autocr, chars[1..])
  }

  /** Echoing `ch` into `r`, which leaves `mid`, and then `bs` into `mid`,
      which leaves `w`, is echoing `[ch] + bs` into `r`. */
  lemma EchoEachCons(r: Ring, mid: Ring, w: Ring, autocr: bool, ch: byte, bs: seq<byte>)
    requires r.Valid() && mid == r.Write(Expand(autocr, ch as int)).ring
    requires w == EchoEach(mid, autocr, bs)
    ensures w == EchoEach(r, autocr, [ch] + bs)
  {
    assert ([ch] + bs)[1..] == bs;
  }

  /** One-character echoes store what one truncating write of the whole
      expansion stores. */
  lemma {:induction false} EchoEachStores(r: Ring, autocr: bool, chars: seq<byte>)
    requires r.Valid()
    ensures var e := ExpandAll(autocr, chars);
      EchoEach(r, autocr, chars).data == r.data + e[..Min(|e|, r.Free())]
    decreases |chars|
  {
    var e := ExpandAll(autocr, chars);
    if |chars| == 0 {
      assert e[..Min(|e|, r.Free())] == [];
    } else {
      var d := Expand(autocr, chars[0] as int);
      var rest := ExpandAll(autocr, chars[1..]);
      var w := r.Write(d).ring;
      assert w.data == r.data + d[..Min(|d|, r.Free())];
      EchoEachStores(w, autocr, chars[1..]);
      TruncateConcat(r.data, w.data, EchoEach(w, autocr, chars[1..]).data, d, rest, r.Free());
    }
  }

  /** The write ring `w` after echoing, one at a time, the bytes that
      `Drain(rb, k)` pops. */
  function EchoDrain(w: Ring, rb: Ring, autocr: bool, k: nat): (e: Ring)
    requires w.Valid() && rb.Valid()
    ensures e.Valid() && e.cap == w.cap
    decreases k
  {
    if k == 0 || rb.Len() == 0 then w
    else
      var first := rb.Read(1);
      EchoDrain(w.Write(Expand(autocr, first.bytes[0] as int)).ring, first.ring, autocr, k - 1)
  }

  /** One step of `EchoDrain`: the head byte's expansion is written first. */
  lemma EchoDrainStep(w: Ring, rb: Ring, autocr: bool, k: nat)
    requires w.Valid() && rb.Valid() && k > 0 && rb.Len() > 0
    ensures rb.Read(1).bytes == [rb.data[0]]
    ensures EchoDrain(w, rb, autocr, k)
         == EchoDrain(w.Write(Expand(autocr, rb.data[0] as int)).ring, rb.Read(1).ring, autocr, k - 1)
  {
    var first := rb.Read(1);
    assert first.bytes + first.ring.data == rb.data;
  }

  /** Echoing what a drain pops, byte by byte, is echoing the drained bytes. */
  lemma {:induction false} EchoDrainEchoes(w: Ring, rb: Ring, autocr: bool, k: nat)
    requires w.Valid() && rb.Valid()
    ensures EchoDrain(w, rb, autocr, k) == EchoEach(w, autocr, Drain(rb, k).bytes)
    decreases k
  {
    if k > 0 && rb.Len() > 0 {
      var first := rb.Read(1);
      var mid := w.Write(Expand(autocr, first.bytes[0] as int)).ring;
      EchoDrainEchoes(mid, first.ring, autocr, k - 1);
      assert first.bytes == [first.bytes[0]];
      EchoEachCons(w, mid, EchoDrain(mid, first.ring, autocr, k - 1), autocr,
                   first.bytes[0], Drain(first.ring, k - 1).bytes);
    }
  }

  /** How many of the one-character writes of `chars`, each expanded and cut
      to the room the earlier ones left out of `free`, come up short. */
  function Truncations(autocr: bool, chars: seq<byte>, free: nat): nat
    decreases |chars|
  {
    if |chars| == 0 then 0
    else
      var d := Expand(autocr, chars[0] as int);
      (if |d| > free then 1 else 0) + Truncations(autocr, chars[1..], free - Min(|d|, free))
  }

  /** The overflow counter after the one-character writes of `chars`, each
      expanded and cut to the room the earlier ones left out of `free`,
      starting from `x` and counting each write that comes up short. */
  function OverflowAfter(autocr: bool, chars: seq<byte>, free: nat, x: u32): u32
    decreases |chars|
  {
    if |chars| == 0 then x
    else
      var d := Expand(autocr, chars[0] as int);
      OverflowAfter(autocr, chars[1..], free - Min(|d|, free), if |d| > free then Inc32(x) else x)
  }

  /** The counter ends `Truncations` increments, wrapping, past where it
      started. */
  lemma {:induction false} OverflowAfterCounts(autocr: bool, chars: seq<byte>, free: nat, x: u32)
    ensures OverflowAfter(autocr, chars, free, x) == Add32(x, Truncations(autocr, chars, free))
    decreases |chars|
  {
    if |chars| > 0 {
      var d := Expand(autocr, chars[0] as int);
      var rest := Truncations(autocr, chars[1..], free - Min(|d|, free));
      OverflowAfterCounts(autocr, chars[1..], free - Min(|d|, free), if |d| > free then Inc32(x) else x);
      Add32Step(x, |d| > free, rest);
    }
  }

  /** No write comes up short exactly when the whole expansion fits. */
  lemma {:induction false} TruncationsZeroIffFits(autocr: bool, chars: seq<byte>, free: nat)
    ensures Truncations(autocr, chars, free) == 0 <==> |ExpandAll(autocr, chars)| <= free
    decreases |chars|
  {
    if |chars| > 0 {
      TruncationsZeroIffFits(autocr, chars[1..], free - Min(|Expand(autocr, chars[0] as int)|, free));
    }
  }

  /** With no room at all, every character's write comes up short. */
  lemma {:induction false} TruncationsWhenFull(autocr: bool, chars: seq<byte>)
    ensures Truncations(autocr, chars, 0) == |chars|
    decreases |chars|
  {
    if |chars| > 0 {
      TruncationsWhenFull(autocr, chars[1..]);
    }
  }

  /** The contiguous run is the whole queue exactly when the queue has not
      wrapped past the end of the storage. */
  lemma ContigIsWholeUnlessWrapped(r: Ring)
    requires r.Valid()
    ensures r.ContigLen() == r.Len() <==> !r.Wrapped()
  {
  }
}

=== FILE: uart.dfy ===
/** The interrupt-mode serial backend of the console driver
    (dtty_stm32_uart.c). The driver's globals are one immutable `State`; each
    entry point and each interrupt callback is a function from the old state
    and its inputs (HAL return codes, the received byte, the execution
    context) to the new state and its result. Semaphore gives and
    `bsp_abortsystem` calls appear as fields of the result. */
module UartDriver {
  import opened Common
  import opened RingBuffer

  const READ_BUFFER_SIZE: nat := 512
  const WRITE_BUFFER_SIZE: nat := 1024 * 10

  datatype State = State(
    g: Globals,
    rbuf: Ring,
    wbuf: Ring,
    rxOverflow: u32,
    txOverflow: u32,
    resetCount: u32,
    needReset: bool,
    needRxRestart: bool,
    needTxRestart: bool)

  /** What the HAL answers during one entry-point call, one answer per call
      site: the receive arm inside a lazy `dtty_init`, the receive re-arm of
      the read loop, and the transmit arm of `dtty_putc`/`dtty_flush`. */
  datatype Hal = Hal(initRx: HalStatus, rxArm: HalStatus, txArm: HalStatus)

  predicate Valid(s: State) {
    && s.rbuf.Valid() && s.rbuf.cap == READ_BUFFER_SIZE
    && s.wbuf.Valid() && s.wbuf.cap == WRITE_BUFFER_SIZE
  }

  /** `_dtty_stm32_uart_reset`: check-then-act under the reset lock. The
      HAL de-init and init it performs are asserted to succeed by the
      source and are taken to succeed here. */
  function Reset(s: State): (r: State)
    ensures !s.needReset ==> r == s
    ensures s.needReset ==> !r.needReset && r.needRxRestart && r.needTxRestart
    ensures s.needReset ==> r.resetCount == Inc32(s.resetCount)
    ensures r.g == s.g && r.rbuf == s.rbuf && r.wbuf == s.wbuf
    ensures r.rxOverflow == s.rxOverflow && r.txOverflow == s.txOverflow
  {
    if s.needReset then
      s.(needReset := false, needRxRestart := true, needTxRestart := true,
         resetCount := Inc32(s.resetCount))
    else s
  }

  /** A second reset right after the first finds nothing to do. */
  lemma ResetIdempotent(s: State)
    ensures Reset(Reset(s)) == Reset(s)
    ensures Reset(Reset(s)).resetCount == if s.needReset then Inc32(s.resetCount) else s.resetCount
  {
  }

  /** `dtty_stm32_uart_rx_callback`: the HAL has put `b` at the tail slot;
      the callback accounts for it and re-arms a one-byte receive, whose
      outcome is `rxArm`. `errorCode` is the handle's `ErrorCode`. */
  function RxCallback(s: State, errorCode: nat, kernelActive: bool, b: byte, rxArm: HalStatus): (r: Step<State>)
    requires Valid(s)
    ensures Valid(r.s)
    ensures errorCode != 0 || s.needReset ==> r == Step(s, NoSignal, false)
    ensures errorCode == 0 && !s.needReset && s.needRxRestart ==> r == Step(s, NoSignal, true)
    ensures errorCode == 0 && !s.needReset && !s.needRxRestart ==>
      && !r.abort && !r.sig.wsem
      && (r.s.needRxRestart <==> rxArm != HalOk)
      && (s.rbuf.IsFull() ==>
            r.s.rbuf == s.rbuf && r.s.rxOverflow == Inc32(s.rxOverflow) && !r.sig.rsem)
      && (!s.rbuf.IsFull() ==>
            && r.s.rbuf.data == s.rbuf.data + [b] && r.s.rxOverflow == s.rxOverflow
            && (r.sig.rsem <==> s.rbuf.Len() == 0 && kernelActive))
      && r.s.(rbuf := s.rbuf, rxOverflow := s.rxOverflow, needRxRestart := s.needRxRestart) == s
  {
    if errorCode != 0 || s.needReset then Step(s, NoSignal, false)
    else if s.needRxRestart then Step(s, NoSignal, true)
    else
      var full := s.rbuf.IsFull();
      var stored :=
        if full then s.(rxOverflow := Inc32(s.rxOverflow))
        else s.(rbuf := s.rbuf.Write([b]).ring);
      var signal := !full && s.rbuf.Len() == 0 && kernelActive;
      Step(stored.(needRxRestart := rxArm != HalOk), Signals(signal, false), false)
  }

  /** `dtty_stm32_uart_tx_callback`: the byte at the head has gone out; it is
      dropped and the next one is armed, with outcome `txArm`. */
  function TxCallback(s: State, errorCode: nat, kernelActive: bool, txArm: HalStatus): (r: Step<State>)
    requires Valid(s)
    ensures Valid(r.s)
    ensures errorCode != 0 || s.needReset ==> r == Step(s, NoSignal, false)
    ensures errorCode == 0 && !s.needReset ==>
      && r.s.(wbuf := s.wbuf, needTxRestart := s.needTxRestart) == s
      && (s.wbuf.Len() > 0 ==> r.s.wbuf.data == s.wbuf.data[1..])
      && (s.wbuf.Len() == 0 ==> r.s.wbuf.data == s.wbuf.data)
      && !r.sig.rsem
      && (s.wbuf.Len() <= 1 ==> r.s.needTxRestart && (r.sig.wsem <==> kernelActive) && !r.abort)
      && (s.wbuf.Len() > 1 ==>
            r.s.needTxRestart == s.needTxRestart && !r.sig.wsem && (r.abort <==> txArm != HalOk))
  {
    if errorCode != 0 || s.needReset then Step(s, NoSignal, false)
    else
      var t := s.(wbuf := s.wbuf.Read(1).ring);
      if t.wbuf.Len() == 0 then Step(t.(needTxRestart := true), Signals(false, kernelActive), false)
      else Step(t, NoSignal, txArm != HalOk)
  }

  /** `dtty_stm32_uart_err_callback`: only flags the reset; all recovery is
      left to task context. */
  function ErrCallback(s: State): (r: State)
    ensures r.needReset
    ensures r.(needReset := s.needReset) == s
  {
    s.(needReset := true)
  }

  /** After a transport error the next reset happens exactly once: one more
      reset, both restarts pending, and a repeated reset adds nothing. */
  lemma ErrorThenResetCountsOnce(s: State)
    ensures var r := Reset(ErrCallback(s));
      && r.resetCount == Inc32(s.resetCount) && !r.needReset
      && r.needRxRestart && r.needTxRestart
      && Reset(r) == r
  {
  }

  /** `k` transmit-complete interrupts in a row, with no transport error,
      the kernel running and every re-arm accepted. The result gathers the
      signals given and whether any of them aborted. */
  function TxAll(s: State, k: nat): (r: Step<State>)
    requires Valid(s)
    ensures Valid(r.s)
    decreases k
  {
    if k == 0 then Step(s, NoSignal, false)
    else
      var a := TxCallback(s, 0, true, HalOk);
      var b := TxAll(a.s, k - 1);
      Step(b.s, a.sig.Or(b.sig), a.abort || b.abort)
  }

  /** The transmit interrupts send the write buffer oldest byte first. While
      bytes remain nothing else changes; the one that empties the buffer
      marks the transmit as stopped and wakes a waiting writer. */
  lemma {:induction false} TxAllSends(s: State, k: nat)
    requires Valid(s) && !s.needReset && k <= s.wbuf.Len()
    ensures var r := TxAll(s, k);
      && r.s.wbuf.data == s.wbuf.data[k..] && !r.abort
      && r.s.(wbuf := s.wbuf, needTxRestart := s.needTxRestart) == s
      && (k < s.wbuf.Len() ==> r.s.needTxRestart == s.needTxRestart)
      && (0 < k == s.wbuf.Len() ==> r.s.needTxRestart && r.sig.wsem)
    decreases k
  {
    if k > 0 {
      var a := TxCallback(s, 0, true, HalOk);
      assert a.s.wbuf.data == s.wbuf.data[1..];
      TxAllSends(a.s, k - 1);
      assert s.wbuf.data[1..][k - 1..] == s.wbuf.data[k..];
    }
  }

  /** The guard at the top of `dtty_init`: the call does anything at all. */
  predicate InitRuns(s: State, ctx: Context) {
    !ctx.restricted && ctx.kernelActive && !s.g.init && !s.g.inInit
  }

  /** `dtty_init`: always returns 0; `initRx` is the outcome of arming the
      first receive. */
  function Init(s: State, ctx: Context, initRx: HalStatus): (r: Call<State>)
    requires Valid(s)
    ensures Valid(r.s) && r.ret == 0 && r.sig == NoSignal
    ensures !InitRuns(s, ctx) ==> r.s == s
    ensures InitRuns(s, ctx) ==>
      && r.s.g == Globals(true, false, true, true)
      && r.s.rxOverflow == 0 && r.s.txOverflow == 0 && r.s.resetCount == 0
      && r.s.rbuf.Len() == 0 && r.s.wbuf == s.wbuf
      && !r.s.needReset && r.s.needTxRestart
      && (r.s.needRxRestart <==> initRx != HalOk)
  {
    if !InitRuns(s, ctx) then Call(s, 0, NoSignal)
    else
      var entering := s.(g := s.g.(inInit := true, echo := true, autocr := true),
                         rxOverflow := 0, txOverflow := 0, needReset := true);
      var reset := Reset(entering);
      var counted := reset.(resetCount := 0, g := reset.g.(init := true));
      var cleared := counted.(rbuf := counted.rbuf.Clear());
      Call(cleared.(needRxRestart := initRx != HalOk, g := cleared.g.(inInit := false)), 0, NoSignal)
  }

  /** Calling `dtty_init` twice does the work once. */
  lemma InitIdempotent(s: State, ctx: Context, initRx: HalStatus, initRx': HalStatus)
    requires Valid(s)
    ensures Init(Init(s, ctx, initRx).s, ctx, initRx').s == Init(s, ctx, initRx).s
  {
  }

  /** The `if (!_g_bsp_dtty_init) dtty_init();` preamble of the entry points. */
  function Initialised(s: State, ctx: Context, initRx: HalStatus): (r: State)
    requires Valid(s)
    ensures Valid(r)
    ensures s.g.init ==> r == s
    ensures r.g.init <==> s.g.init || InitRuns(s, ctx)
    ensures r.wbuf == s.wbuf
  {
    if s.g.init then s else Init(s, ctx, initRx).s
  }

  /** The body of `dtty_putc` run under the write lock: reset check, the
      (auto-CR expanded) write with overflow accounting, and the transmit
      arm when none is in flight. */
  function PutcLocked(s: State, ch: int, txArm: HalStatus): (r: Call<State>)
    requires Valid(s)
    ensures Valid(r.s) && r.sig == NoSignal
    ensures var d := Expand(s.g.autocr, ch);
            var w := s.wbuf.Write(d);
      && r.s.wbuf == w.ring
      && r.s.txOverflow == (if w.count < |d| then Inc32(s.txOverflow) else s.txOverflow)
    ensures r.ret == 0 || r.ret == -1
    ensures r.ret == -1 <==> Reset(s).needTxRestart && txArm != HalOk && txArm != HalBusy
    ensures r.s.needTxRestart <==> r.ret == -1
    ensures var t := Reset(s);
      r.s.(wbuf := t.wbuf, txOverflow := t.txOverflow, needTxRestart := t.needTxRestart) == t
  {
    var t := Reset(s);
    var d := Expand(t.g.autocr, ch);
    var w := t.wbuf.Write(d);
    var u := t.(wbuf := w.ring,
                txOverflow := if w.count != |d| then Inc32(t.txOverflow) else t.txOverflow);
    if u.needTxRestart then
      if txArm == HalOk || txArm == HalBusy then Call(u.(needTxRestart := false), 0, NoSignal)
      else Call(u, -1, NoSignal)
    else Call(u, 0, NoSignal)
  }

  /** `dtty_putc` */
  function Putc(s: State, ctx: Context, ch: int, hal: Hal): (r: Call<State>)
    requires Valid(s)
    ensures Valid(r.s)
    ensures r.ret == 0 || r.ret == -1
    ensures ctx.restricted ==> r == Call(s, -1, NoSignal)
    ensures !ctx.restricted && !s.g.init && !InitRuns(s, ctx) ==> r == Call(s, -1, NoSignal)
    ensures !ctx.restricted && (s.g.init || InitRuns(s, ctx)) ==>
      r == PutcLocked(Initialised(s, ctx, hal.initRx), ch, hal.txArm)
  {
    if ctx.restricted then Call(s, -1, NoSignal)
    else
      var u := Initialised(s, ctx, hal.initRx);
      if !u.g.init then Call(u, -1, NoSignal)
      else PutcLocked(u, ch, hal.txArm)
  }

  /** A full write buffer drops every byte of a "\r\n" pair, yet the overflow
      counter goes up by one: it counts truncated calls, not dropped bytes. */
  lemma OverflowCountsCalls(s: State, txArm: HalStatus)
    requires Valid(s) && s.g.autocr && s.wbuf.IsFull()
    ensures var r := PutcLocked(s, LF as int, txArm).s;
      && |Expand(s.g.autocr, LF as int)| == 2
      && r.wbuf.data == s.wbuf.data
      && r.txOverflow == Inc32(s.txOverflow)
  {
  }

  /** The reset check and receive re-arm at the top of every pass of the
      read loop. */
  function ReadPrologue(s: State, rxArm: HalStatus): (r: State)
    requires Valid(s)
    ensures Valid(r) && !r.needReset
    ensures r.g == s.g && r.rbuf == s.rbuf && r.wbuf == s.wbuf
    ensures r.needTxRestart == Reset(s).needTxRestart && r.resetCount == Reset(s).resetCount
    ensures r.needRxRestart <==> (s.needReset || s.needRxRestart) && rxArm != HalOk
  {
    var t := Reset(s);
    if t.needRxRestart then t.(needRxRestart := rxArm != HalOk) else t
  }

  /** The echo at the end of `_dtty_getc_advan` when `r` is 0: whatever
      `*ch_p` holds is passed to `dtty_putc`, which on an initialised driver
      outside an interrupt is `PutcLocked`, as `Putc`'s contract states. */
  function Echo(s: State, ch: byte, hal: Hal): (r: Got<State>)
    requires Valid(s) && s.g.init
    ensures r.p.Ready? && r.p.ret == 0 && r.ch == ch && Valid(r.p.s)
    ensures r.p.s.rbuf == s.rbuf && r.p.s.g == s.g
    ensures !s.g.echo ==> r.p.s == s
    ensures s.g.echo ==> r.p.s == PutcLocked(s, ch as int, hal.txArm).s
  {
    if s.g.echo then
      var c := PutcLocked(s, ch as int, hal.txArm);
      Got(Ready(c.s, 0, c.sig), ch)
    else Got(Ready(s, 0, NoSignal), ch)
  }

  /** One pass of the read loop of `_dtty_getc_advan`, with the lock held,
      and the echo when the pass ends the loop. A pass that waits on the
      read semaphore is followed by another pass. */
  function GetcPass(s: State, blocked: bool, chIn: byte, hal: Hal): (r: Got<State>)
    requires Valid(s) && s.g.init
    ensures Valid(r.p.s) && !r.p.s.needReset && r.p.s.g == s.g
    ensures s.rbuf.Len() > 0 ==>
      && r.p.Ready? && r.p.ret == 0
      && r.ch == s.rbuf.data[0] && r.p.s.rbuf.data == s.rbuf.data[1..]
    ensures s.rbuf.Len() == 0 && !blocked ==>
      r.p.Ready? && r.p.ret == 0 && r.ch == chIn && r.p.s.rbuf == s.rbuf
    ensures s.rbuf.Len() == 0 && blocked ==>
      r.p == Waiting(ReadPrologue(s, hal.rxArm), NoSignal)
    ensures r.p.Ready? && s.g.echo ==>
      var d := Expand(s.g.autocr, r.ch as int);
      var w := s.wbuf.Write(d);
      && r.p.s.wbuf == w.ring
      && r.p.s.txOverflow == (if w.count < |d| then Inc32(s.txOverflow) else s.txOverflow)
      && (r.p.s.needTxRestart <==> Reset(s).needTxRestart && hal.txArm != HalOk && hal.txArm != HalBusy)
    ensures !s.g.echo ==> r.p.s.wbuf == s.wbuf && r.p.s.txOverflow == s.txOverflow
    ensures var t := ReadPrologue(s, hal.rxArm);
      && r.p.s.needRxRestart == t.needRxRestart && r.p.s.resetCount == t.resetCount
      && r.p.s.rxOverflow == s.rxOverflow
      && (!s.g.echo ==> r.p.s.needTxRestart == t.needTxRestart)
  {
    var t := ReadPrologue(s, hal.rxArm);
    if t.rbuf.Len() > 0 then
      var taken := t.rbuf.Read(1);
      Echo(t.(rbuf := taken.ring), taken.bytes[0], hal)
    else if !blocked then Echo(t, chIn, hal)
    else Got(Waiting(t, NoSignal), chIn)
  }

  /** `_dtty_getc_advan` up to the end of its first pass of the read loop.
      `lockResult` is what `mutex_lock` / `mutex_lock_timed` returned. */
  function Getc(s: State, ctx: Context, blocked: bool, lockResult: int, chIn: byte, hal: Hal): (r: Got<State>)
    requires Valid(s)
    ensures Valid(r.p.s)
    ensures ctx.restricted ==> r == Got(Ready(s, -1, NoSignal), chIn)
    ensures !ctx.restricted && !s.g.init && !InitRuns(s, ctx) ==> r == Got(Ready(s, -1, NoSignal), chIn)
    ensures !ctx.restricted && (s.g.init || InitRuns(s, ctx)) ==>
      var u := Initialised(s, ctx, hal.initRx);
      && (lockResult != 0 ==> r == Got(Ready(u, lockResult, NoSignal), chIn))
      && (lockResult == 0 ==> r == GetcPass(u, blocked, chIn, hal))
  {
    if ctx.restricted then Got(Ready(s, -1, NoSignal), chIn)
    else
      var u := Initialised(s, ctx, hal.initRx);
      if !u.g.init then Got(Ready(u, -1, NoSignal), chIn)
      else if lockResult != 0 then Got(Ready(u, lockResult, NoSignal), chIn)
      else GetcPass(u, blocked, chIn, hal)
  }

  /** A non-blocking read of an empty buffer reports success (0), leaves
      `*ch_p` as the caller had it, and with echo on sends that stale value
      to the write buffer. */
  lemma NonblockingEmptyReadSucceeds(s: State, ctx: Context, chIn: byte, hal: Hal)
    requires Valid(s) && s.g.init && !ctx.restricted && s.rbuf.Len() == 0
    ensures var r := Getc(s, ctx, false, 0, chIn, hal);
      && r.p.Ready? && r.p.ret == 0 && r.ch == chIn
      && (s.g.echo && s.wbuf.Free() >= 2 ==>
            r.p.s.wbuf.data == s.wbuf.data + Expand(s.g.autocr, chIn as int))
  {
    var r := Getc(s, ctx, false, 0, chIn, hal);
    var t := ReadPrologue(s, hal.rxArm);
    assert r == Echo(t, chIn, hal);
    if s.g.echo && s.wbuf.Free() >= 2 {
      var c := PutcLocked(t, chIn as int, hal.txArm);
      assert r.p.s == c.s;
      var d := Expand(s.g.autocr, chIn as int);
      assert t.wbuf == s.wbuf && t.g == s.g;
      var n := c.s.wbuf.Len() - t.wbuf.Len();
      assert 0 <= n <= |d| && c.s.wbuf.data == t.wbuf.data + d[..n];
      assert n == |d| || c.s.wbuf.IsFull();
      assert |c.s.wbuf.data| == |t.wbuf.data| + n;
      assert c.s.wbuf.cap == t.wbuf.cap == s.wbuf.cap;
      assert s.wbuf.cap - |s.wbuf.data| >= 2 >= |d|;
      assert n == |d|;
      assert d[..|d|] == d;
    }
  }

  /** The part of the flush loop from the reset check to the semaphore wait. */
  function FlushCheck(s: State): (r: Poll<State>)
    requires Valid(s)
    ensures Valid(r.s) && r.s == Reset(s) && r.sig == NoSignal
    ensures r.Ready? <==> s.wbuf.Len() == 0
    ensures r.Ready? ==> r.ret == 0
  {
    var t := Reset(s);
    if t.wbuf.Len() == 0 then Ready(t, 0, NoSignal) else Waiting(t, NoSignal)
  }

  /** `dtty_flush` up to its first wait on the write semaphore. */
  function FlushEnter(s: State, ctx: Context, hal: Hal): (r: Poll<State>)
    requires Valid(s)
    ensures Valid(r.s) && r.sig == NoSignal
    ensures ctx.restricted ==> r == Ready(s, -1, NoSignal)
    ensures !ctx.restricted && !s.g.init && !InitRuns(s, ctx) ==> r == Ready(s, -1, NoSignal)
    ensures r.Ready? && r.ret != -1 ==> r.ret == 0 && r.s.wbuf.Len() == 0
    ensures !ctx.restricted && (s.g.init || InitRuns(s, ctx)) ==>
      r == FlushCheck(Initialised(s, ctx, hal.initRx)) && (r.Ready? <==> s.wbuf.Len() == 0)
  {
    if ctx.restricted then Ready(s, -1, NoSignal)
    else
      var u := Initialised(s, ctx, hal.initRx);
      if !u.g.init then Ready(u, -1, NoSignal)
      else FlushCheck(u)
  }

  /** One turn of the flush loop after a wait: re-check the length, re-arm
      the transmit if none is in flight (its status is overwritten by the
      next turn), then the reset check and length check before the next
      wait. The loop only returns once the write buffer is empty. */
  function FlushResume(s: State, txArm: HalStatus): (r: Poll<State>)
    requires Valid(s)
    ensures Valid(r.s) && r.sig == NoSignal
    ensures r.Ready? <==> s.wbuf.Len() == 0
    ensures r.Ready? ==> r.ret == 0 && r.s == s
    ensures r.s.wbuf == s.wbuf && r.s.rbuf == s.rbuf && r.s.g == s.g
    ensures r.Waiting? && !s.needReset ==>
      (r.s.needTxRestart <==> s.needTxRestart && txArm != HalOk && txArm != HalBusy)
    ensures r.Waiting? && s.needReset ==> r.s.needTxRestart
    ensures r.Waiting? ==>
      && !r.s.needReset && r.s.resetCount == Reset(s).resetCount
      && r.s.needRxRestart == Reset(s).needRxRestart
      && r.s.rxOverflow == s.rxOverflow && r.s.txOverflow == s.txOverflow
  {
    if s.wbuf.Len() == 0 then Ready(s, 0, NoSignal)
    else
      var armed :=
        if s.needTxRestart && (txArm == HalOk || txArm == HalBusy) then s.(needTxRestart := false)
        else s;
      FlushCheck(armed)
  }

  /** `dtty_putc` stores as much of the expanded character as there is room
      for, and counts an overflow only when that is not all of it. */
  lemma PutcLockedStores(s: State, ch: int, txArm: HalStatus)
    requires Valid(s) && s.g.init
    ensures var d := Expand(s.g.autocr, ch);
            var r := PutcLocked(s, ch, txArm).s;
      && r.wbuf.data == s.wbuf.data + d[..Min(|d|, s.wbuf.Free())]
      && r.wbuf.Free() == s.wbuf.Free() - Min(|d|, s.wbuf.Free())
      && r.txOverflow == (if |d| > s.wbuf.Free() then Inc32(s.txOverflow) else s.txOverflow)
  {
    var d := Expand(s.g.autocr, ch);
    var r := PutcLocked(s, ch, txArm).s;
    var n := r.wbuf.Len() - s.wbuf.Len();
    assert n == Min(|d|, s.wbuf.Free());
  }

  /** The `dtty_putc` loop of `dtty_putn`, character `i + k` answered by
      `hal(i + k)`. */
  function PutAll(s: State, ctx: Context, chars: seq<byte>, hal: nat -> Hal, i: nat): (r: State)
    requires Valid(s) && s.g.init && !ctx.restricted
    ensures Valid(r) && r.g == s.g && r.rbuf == s.rbuf
    decreases |chars|
  {
    if |chars| == 0 then s
    else PutAll(Putc(s, ctx, chars[0] as int, hal(i)).s, ctx, chars[1..], hal, i + 1)
  }

  /** On an initialised driver each turn of the loop is the locked body of
      `dtty_putc`. */
  lemma PutAllUnfold(s: State, ctx: Context, chars: seq<byte>, hal: nat -> Hal, i: nat)
    requires Valid(s) && s.g.init && !ctx.restricted && |chars| > 0
    ensures PutAll(s, ctx, chars, hal, i)
         == PutAll(PutcLocked(s, chars[0] as int, hal(i).txArm).s, ctx, chars[1..], hal, i + 1)
  {
  }

  /** The first turn of the loop, with what `dtty_putc` did to the room in
      the write buffer and to the overflow counter; the loop's counter ends
      as it would going on from `c`. */
  lemma PutAllFirst(s: State, ctx: Context, chars: seq<byte>, hal: nat -> Hal, i: nat) returns (c: State)
    requires Valid(s) && s.g.init && !ctx.restricted && |chars| > 0
    ensures var d := Expand(s.g.autocr, chars[0] as int);
            var f := s.wbuf.Free();
      && Valid(c) && c.g == s.g
      && c.wbuf.Free() == f - Min(|d|, f)
      && c.txOverflow == (if |d| > f then Inc32(s.txOverflow) else s.txOverflow)
      && PutAll(s, ctx, chars, hal, i).txOverflow == PutAll(c, ctx, chars[1..], hal, i + 1).txOverflow
  {
    PutAllUnfold(s, ctx, chars, hal, i);
    PutcLockedStores(s, chars[0] as int, hal(i).txArm);
    c := PutcLocked(s, chars[0] as int, hal(i).txArm).s;
  }

  /** The loop leaves the receive side alone; once it has run, the reset
      check of its first turn has been done. */
  lemma {:induction false} PutAllKeeps(s: State, ctx: Context, chars: seq<byte>, hal: nat -> Hal, i: nat)
    requires Valid(s) && s.g.init && !ctx.restricted
    ensures var r := PutAll(s, ctx, chars, hal, i);
      && r.rxOverflow == s.rxOverflow
      && (|chars| == 0 ==> r == s)
      && (|chars| > 0 ==>
            && !r.needReset && r.resetCount == Reset(s).resetCount
            && r.needRxRestart == Reset(s).needRxRestart)
    decreases |chars|
  {
    if |chars| > 0 {
      var c := PutcLocked(s, chars[0] as int, hal(i).txArm).s;
      PutAllUnfold(s, ctx, chars, hal, i);
      PutAllKeeps(c, ctx, chars[1..], hal, i + 1);
    }
  }

  /** The loop stores what one truncating write of the whole expanded
      string would: the old contents followed by as much of the expansion as
      there was room for. When all of it fits, no overflow is counted. */
  lemma {:induction false} PutAllStores(s: State, ctx: Context, chars: seq<byte>, hal: nat -> Hal, i: nat)
    requires Valid(s) && s.g.init && !ctx.restricted
    ensures var r := PutAll(s, ctx, chars, hal, i);
            var e := ExpandAll(s.g.autocr, chars);
      && r.wbuf.data == s.wbuf.data + e[..Min(|e|, s.wbuf.Free())]
      && (|e| <= s.wbuf.Free() ==> r.txOverflow == s.txOverflow)
    decreases |chars|
  {
    var e := ExpandAll(s.g.autocr, chars);
    if |chars| == 0 {
      assert e[..Min(|e|, s.wbuf.Free())] == [];
    } else {
      var ch := chars[0] as int;
      var d := Expand(s.g.autocr, ch);
      var rest := ExpandAll(s.g.autocr, chars[1..]);
      var c := PutcLocked(s, ch, hal(i).txArm).s;
      PutAllUnfold(s, ctx, chars, hal, i);
      assert e == d + rest;
      PutcLockedStores(s, ch, hal(i).txArm);
      PutAllStores(c, ctx, chars[1..], hal, i + 1);
      TruncateConcat(s.wbuf.data, c.wbuf.data, PutAll(c, ctx, chars[1..], hal, i + 1).wbuf.data,
                     d, rest, s.wbuf.Free());
    }
  }

  /** The loop adds one to `tx_overflow_count` for each character whose
      expansion did not fit in the room the earlier ones left, wrapping as
      a `uint32_t` does. */
  lemma {:induction false} PutAllCounts(s: State, ctx: Context, chars: seq<byte>, hal: nat -> Hal, i: nat)
    requires Valid(s) && s.g.init && !ctx.restricted
    ensures PutAll(s, ctx, chars, hal, i).txOverflow
         == Add32(s.txOverflow, Truncations(s.g.autocr, chars, s.wbuf.Free()))
  {
    PutAllOverflows(s, ctx, chars, hal, i);
    OverflowAfterCounts(s.g.autocr, chars, s.wbuf.Free(), s.txOverflow);
  }

  /** The loop's overflow counter, one turn at a time. */
  lemma {:induction false} PutAllOverflows(s: State, ctx: Context, chars: seq<byte>, hal: nat -> Hal, i: nat)
    requires Valid(s) && s.g.init && !ctx.restricted
    ensures PutAll(s, ctx, chars, hal, i).txOverflow
         == OverflowAfter(s.g.autocr, chars, s.wbuf.Free(), s.txOverflow)
    decreases |chars|
  {
    if |chars| > 0 {
      var c := PutAllFirst(s, ctx, chars, hal, i);
      PutAllOverflows(c, ctx, chars[1..], hal, i + 1);
    }
  }



  /** `dtty_putn`; `str` is `None` when the caller passes NULL. */
  function Putn(s: State, ctx: Context, str: Option<seq<byte>>, len: int, hal: nat -> Hal): (r: Call<State>)
    requires Valid(s)
    requires str.Some? && 0 <= len ==> len <= |str.value|
    ensures Valid(r.s) && r.sig == NoSignal
    ensures ctx.restricted ==> r == Call(s, -1, NoSignal)
    ensures !ctx.restricted && !s.g.init && !InitRuns(s, ctx) ==> r == Call(s, -1, NoSignal)
    ensures !ctx.restricted && (s.g.init || InitRuns(s, ctx)) ==>
      && (str.None? ==> r.ret == -2)
      && (str.Some? && len < 0 ==> r.ret == -3)
      && (str.Some? && 0 <= len ==> r.ret == len)
    ensures !ctx.restricted && (s.g.init || InitRuns(s, ctx)) && str.Some? && 0 <= len ==>
      var u := Initialised(s, ctx, hal(0).initRx);
      var e := ExpandAll(u.g.autocr, str.value[..len]);
      && r.s.g == u.g && r.s.rbuf == u.rbuf && r.s.rxOverflow == u.rxOverflow
      && r.s.wbuf.data == s.wbuf.data + e[..Min(|e|, s.wbuf.Free())]
      && (|e| <= s.wbuf.Free() ==> r.s.txOverflow == u.txOverflow)
      && (len == 0 ==> r.s == u)
      && (len > 0 ==>
            && !r.s.needReset && r.s.resetCount == Reset(u).resetCount
            && r.s.needRxRestart == Reset(u).needRxRestart)
  {
    if ctx.restricted then Call(s, -1, NoSignal)
    else
      var u := Initialised(s, ctx, hal(0).initRx);
      if !u.g.init then Call(u, -1, NoSignal)
      else if str.None? then Call(u, -2, NoSignal)
      else if len < 0 then Call(u, -3, NoSignal)
      else
        PutAllKeeps(u, ctx, str.value[..len], hal, 0);
        PutAllStores(u, ctx, str.value[..len], hal, 0);
        Call(PutAll(u, ctx, str.value[..len], hal, 0), len, NoSignal)
  }

  /** On an initialised driver in task context, `dtty_putn` adds one to
      `tx_overflow_count` for each character whose expansion did not fit in
      the room the earlier ones left, wrapping as a `uint32_t` does. */
  lemma PutnCounts(s: State, ctx: Context, str: seq<byte>, len: nat, hal: nat -> Hal)
    requires Valid(s) && !ctx.restricted && (s.g.init || InitRuns(s, ctx)) && len <= |str|
    ensures var u := Initialised(s, ctx, hal(0).initRx);
      Putn(s, ctx, Some(str), len, hal).s.txOverflow
        == Add32(u.txOverflow, Truncations(u.g.autocr, str[..len], s.wbuf.Free()))
  {
    PutAllCounts(Initialised(s, ctx, hal(0).initRx), ctx, str[..len], hal, 0);
  }

  /** With auto-CR on, `dtty_putn("X\n", 2)` into an empty write buffer
      queues "X\r\n". */
  lemma PutnExpandsNewline(s: State, ctx: Context, hal: nat -> Hal)
    requires Valid(s) && s.g.init && s.g.autocr && !ctx.restricted && s.wbuf.Len() == 0
    ensures var r := Putn(s, ctx, Some([88, LF]), 2, hal);
      r.ret == 2 && r.s.wbuf.data == [88, CR, LF]
  {
    var str: seq<byte> := [88, LF];
    assert str[..2] == str;
    assert ExpandAll(true, str) == [88] + ExpandAll(true, str[1..]);
    assert ExpandAll(true, str[1..]) == [CR, LF] + ExpandAll(true, str[2..]);
  }

  /** The first `dtty_putc` after boot initialises the driver, which turns
      echo and auto-CR on and empties the read buffer, and then stores the
      expanded character. The transmit is armed because `dtty_init` leaves
      it pending. */
  lemma FirstPutcStores(s: State, ctx: Context, ch: int, hal: Hal)
    requires Valid(s) && InitRuns(s, ctx)
    ensures var r := Putc(s, ctx, ch, hal);
            var d := Expand(true, ch);
      && r.s.g == Globals(true, false, true, true) && r.s.rbuf.Len() == 0
      && r.s.wbuf.data == s.wbuf.data + d[..Min(|d|, s.wbuf.Free())]
      && (r.ret == -1 <==> hal.txArm != HalOk && hal.txArm != HalBusy)
  {
    PutcLockedStores(Initialised(s, ctx, hal.initRx), ch, hal.txArm);
  }

  /** The first blocking `dtty_getc` after boot initialises the driver, which
      empties the read buffer, so the pass waits. The receive stays to be
      re-armed only if both the arm in `dtty_init` and the re-arm failed. */
  lemma FirstGetcWaits(s: State, ctx: Context, chIn: byte, hal: Hal)
    requires Valid(s) && InitRuns(s, ctx)
    ensures var r := Getc(s, ctx, true, 0, chIn, hal);
      && r.p.Waiting? && r.p.s.g == Globals(true, false, true, true) && r.p.s.rbuf.Len() == 0
      && (r.p.s.needRxRestart <==> hal.initRx != HalOk && hal.rxArm != HalOk)
  {
  }

  /** The first `dtty_putn` after boot initialises the driver and stores
      the string expanded with auto-CR on. */
  lemma FirstPutnStores(s: State, ctx: Context, str: seq<byte>, hal: nat -> Hal)
    requires Valid(s) && InitRuns(s, ctx)
    ensures var r := Putn(s, ctx, Some(str), |str|, hal);
            var e := ExpandAll(true, str);
      && r.ret == |str| && r.s.g == Globals(true, false, true, true)
      && r.s.wbuf.data == s.wbuf.data + e[..Min(|e|, s.wbuf.Free())]
      && (|e| <= s.wbuf.Free() ==> r.s.txOverflow == 0)
  {
    assert str[..|str|] == str;
  }

  /** `dtty_kbhit` */
  function Kbhit(s: State, ctx: Context, hal: Hal): (r: Call<State>)
    requires Valid(s)
    ensures Valid(r.s) && r.sig == NoSignal
    ensures ctx.restricted ==> r == Call(s, -1, NoSignal)
    ensures !ctx.restricted && !s.g.init && !InitRuns(s, ctx) ==> r == Call(s, -1, NoSignal)
    ensures !ctx.restricted && s.g.init ==>
      r.s == s && (r.ret == 1 <==> s.rbuf.Len() > 0) && (r.ret == 0 <==> s.rbuf.Len() == 0)
    ensures !ctx.restricted && InitRuns(s, ctx) ==> r.ret == 0
    ensures !ctx.restricted && (s.g.init || InitRuns(s, ctx)) ==> r.s == Initialised(s, ctx, hal.initRx)
  {
    if ctx.restricted then Call(s, -1, NoSignal)
    else
      var u := Initialised(s, ctx, hal.initRx);
      if !u.g.init then Call(u, -1, NoSignal)
      else Call(u, if u.rbuf.Len() != 0 then 1 else 0, NoSignal)
  }

  /** Receiving "ab\n" one byte per interrupt and then reading three times
      yields 'a', 'b', '\n' in that order, after which `dtty_kbhit` reports
      nothing pending. */
  lemma ReceiveThenReadInOrder(s: State, ctx: Context, hal: Hal, chIn: byte)
    requires Valid(s) && s.g.init && !ctx.restricted && s.rbuf.Len() == 0
    requires !s.needReset && !s.needRxRestart
    ensures
      var s1 := RxCallback(s, 0, true, 97, HalOk).s;
      var s2 := RxCallback(s1, 0, true, 98, HalOk).s;
      var s3 := RxCallback(s2, 0, true, LF, HalOk).s;
      var g1 := Getc(s3, ctx, true, 0, chIn, hal);
      var g2 := Getc(g1.p.s, ctx, true, 0, chIn, hal);
      var g3 := Getc(g2.p.s, ctx, true, 0, chIn, hal);
      && g1.p.Ready? && g1.p.ret == 0 && g1.ch == 97
      && g2.p.Ready? && g2.p.ret == 0 && g2.ch == 98
      && g3.p.Ready? && g3.p.ret == 0 && g3.ch == LF
      && Kbhit(g3.p.s, ctx, hal).ret == 0
  {
    var s1 := RxCallback(s, 0, true, 97, HalOk).s;
    var s2 := RxCallback(s1, 0, true, 98, HalOk).s;
    var s3 := RxCallback(s2, 0, true, LF, HalOk).s;
    assert s3.rbuf.data == [97, 98, LF];
    var g1 := Getc(s3, ctx, true, 0, chIn, hal);
    assert g1.p.s.rbuf.data == [98, LF];
    var g2 := Getc(g1.p.s, ctx, true, 0, chIn, hal);
    assert g2.p.s.rbuf.data == [LF];
    var g3 := Getc(g2.p.s, ctx, true, 0, chIn, hal);
    assert g3.p.s.rbuf.Len() == 0;
  }

  /** A run of receive interrupts, one per byte, with no transport error,
      the kernel running and every re-arm accepted. */
  function RxAll(s: State, bs: seq<byte>): (r: State)
    requires Valid(s)
    ensures Valid(r) && r.g == s.g
    decreases |bs|
  {
    if |bs| == 0 then s else RxAll(RxCallback(s, 0, true, bs[0], HalOk).s, bs[1..])
  }

  /** The receive interrupts push bytes into the read buffer exactly as the
      ring's one-byte producer `Feed` does; only the read buffer and the
      receive overflow counter change, and the counter only when a byte
      found the buffer full. */
  lemma {:induction false} RxAllFeeds(s: State, bs: seq<byte>)
    requires Valid(s) && !s.needReset && !s.needRxRestart
    ensures RxAll(s, bs).rbuf == Feed(s.rbuf, bs)
    ensures RxAll(s, bs).(rbuf := s.rbuf, rxOverflow := s.rxOverflow) == s
    ensures |bs| <= s.rbuf.Free() ==> RxAll(s, bs).rxOverflow == s.rxOverflow
    decreases |bs|
  {
    if |bs| > 0 {
      var s1 := RxCallback(s, 0, true, bs[0], HalOk).s;
      assert s1.rbuf == s.rbuf.Write([bs[0]]).ring by {
        if s.rbuf.IsFull() {
          assert s.rbuf.data + [bs[0]][..0] == s.rbuf.data;
        }
      }
      RxAllFeeds(s1, bs[1..]);
    }
  }

  /** Bytes received while there is room are all queued, in the order they
      arrived, behind those already waiting; nothing else changes. */
  lemma RxAllAppends(s: State, bs: seq<byte>)
    requires Valid(s) && !s.needReset && !s.needRxRestart && |bs| <= s.rbuf.Free()
    ensures RxAll(s, bs).rbuf.data == s.rbuf.data + bs
    ensures RxAll(s, bs).(rbuf := s.rbuf) == s
  {
    RxAllFeeds(s, bs);
    FeedAppends(s.rbuf, bs);
  }

  /** `k` blocking reads in a row with the lock held. A read that would wait
      ends the run. */
  function ReadAll(s: State, k: nat, hal: Hal): (r: Reads<State>)
    requires Valid(s) && s.g.init
    ensures Valid(r.s) && r.s.g == s.g
    decreases k
  {
    if k == 0 then Reads(s, [])
    else
      var g := GetcPass(s, true, 0, hal);
      if g.p.Waiting? then Reads(g.p.s, [])
      else
        var rest := ReadAll(g.p.s, k - 1, hal);
        Reads(rest.s, [g.ch] + rest.bytes)
  }

  /** Reads return the queued bytes oldest first and leave the rest queued. */
  lemma ReadAllTakesOldest(s: State, k: nat, hal: Hal)
    requires Valid(s) && s.g.init && k <= s.rbuf.Len()
    ensures ReadAll(s, k, hal).bytes == s.rbuf.data[..k]
    ensures ReadAll(s, k, hal).s.rbuf.data == s.rbuf.data[k..]
  {
    ReadAllDrains(s, k, hal);
    DrainTakesOldest(s.rbuf, k);
  }

  /** Blocking reads pop the read buffer exactly as the ring's one-byte
      consumer `Drain` does. */
  lemma {:induction false} ReadAllDrains(s: State, k: nat, hal: Hal)
    requires Valid(s) && s.g.init
    ensures ReadAll(s, k, hal).bytes == Drain(s.rbuf, k).bytes
    ensures ReadAll(s, k, hal).s.rbuf == Drain(s.rbuf, k).ring
    decreases k
  {
    if k > 0 && s.rbuf.Len() > 0 {
      var g := GetcPass(s, true, 0, hal);
      var first := s.rbuf.Read(1);
      assert g.p.Ready? && g.p.s.rbuf == first.ring && [g.ch] == first.bytes;
      ReadAllDrains(g.p.s, k - 1, hal);
    }
  }

  /** With echo on, a run of reads leaves the write buffer as echoing, one
      at a time, the bytes the ring's `Drain` pops leaves it. */
  lemma {:induction false} ReadAllEchoes(s: State, k: nat, hal: Hal)
    requires Valid(s) && s.g.init && s.g.echo
    ensures ReadAll(s, k, hal).s.wbuf == EchoDrain(s.wbuf, s.rbuf, s.g.autocr, k)
    decreases k
  {
    if k > 0 && s.rbuf.Len() > 0 {
      var g := GetcPass(s, true, 0, hal);
      EchoDrainStep(s.wbuf, s.rbuf, s.g.autocr, k);
      assert g.p.Ready? && g.p.s.rbuf == s.rbuf.Read(1).ring && g.ch == s.rbuf.data[0];
      assert ReadAll(s, k, hal).s == ReadAll(g.p.s, k - 1, hal).s;
      ReadAllEchoes(g.p.s, k - 1, hal);
    }
  }

  /** The driver is a FIFO: bytes received while there is room are read
      back, after those already waiting, in the order they arrived.
      `dtty_kbhit` reports data pending once a byte has arrived and nothing
      pending once every byte has been read. */
  lemma ReceiveThenRead(s: State, bs: seq<byte>, ctx: Context, hal: Hal)
    requires Valid(s) && s.g.init && !ctx.restricted && !s.needReset && !s.needRxRestart
    requires |bs| <= s.rbuf.Free()
    ensures |bs| > 0 ==> Kbhit(RxAll(s, bs), ctx, hal).ret == 1
    ensures var got := ReadAll(RxAll(s, bs), s.rbuf.Len() + |bs|, hal);
      && got.bytes == s.rbuf.data + bs
      && Kbhit(got.s, ctx, hal).ret == 0
      && (s.g.echo ==>
            var e := ExpandAll(s.g.autocr, got.bytes);
            got.s.wbuf.data == s.wbuf.data + e[..Min(|e|, s.wbuf.Free())])
  {
    RxAllAppends(s, bs);
    var r := RxAll(s, bs);
    var n := s.rbuf.Len() + |bs|;
    ReadAllTakesOldest(r, n, hal);
    assert r.rbuf.data[..n] == r.rbuf.data;
    if s.g.echo {
      ReadAllEchoes(r, n, hal);
      ReadAllDrains(r, n, hal);
      EchoDrainEchoes(r.wbuf, r.rbuf, s.g.autocr, n);
      EchoEachStores(r.wbuf, s.g.autocr, r.rbuf.data);
    }
  }

  /** A waiting flush returns, with 0, exactly once the transmit interrupts
      have sent everything that was queued. */
  lemma FlushAfterSend(s: State, k: nat, txArm: HalStatus)
    requires Valid(s) && !s.needReset && k <= s.wbuf.Len()
    ensures var r := FlushResume(TxAll(s, k).s, txArm);
      (r.Ready? <==> k == s.wbuf.Len()) && (r.Ready? ==> r.ret == 0)
  {
    TxAllSends(s, k);
  }
}

=== FILE: usbd.dfy ===
/** The USB CDC (virtual serial port) backend of the console driver
    (dtty_stm32_usbd.c). As for the serial backend, the driver's globals are
    one immutable `State` and each entry point and callback is a function
    from the old state and its inputs (USB stack return codes, the received
    packet, the execution context) to the new state and its result.

    Transmission hands whole runs of the write buffer to the USB stack; the
    length of the run in flight is `writeTryingSize`, which the transmit
    callback later removes from the head of the buffer. */
module UsbDriver {
  import opened Common
  import opened RingBuffer

  const ISR_WRITE_BUFFER_SIZE: nat := 512
  const READ_BUFFER_SIZE: nat := 512
  const WRITE_BUFFER_SIZE: nat := 1024 * 10

  datatype State = State(
    g: Globals,
    semsCreated: bool,  // _g_dtty_usbd_rsem and _g_dtty_usbd_wsem are no longer NULL
    isrBuf: Ring,
    rbuf: Ring,
    wbuf: Ring,
    rxOverflow: u32,
    txOverflow: u32,
    resetCount: u32,
    needReset: bool,
    needTxRestart: bool,
    writeTryingSize: nat)

  /** The invariant every transition keeps. The bytes in flight are always
      still queued, which the transmit callback's `cbuf_read` relies on; and
      the semaphores exist whenever the driver is initialised or a transfer
      is in flight. */
  predicate Valid(s: State) {
    && s.isrBuf.Valid() && s.isrBuf.cap == ISR_WRITE_BUFFER_SIZE
    && s.rbuf.Valid() && s.rbuf.cap == READ_BUFFER_SIZE
    && s.wbuf.Valid() && s.wbuf.cap == WRITE_BUFFER_SIZE
    && s.writeTryingSize <= s.wbuf.Len()
    && (s.g.init || s.writeTryingSize > 0 ==> s.semsCreated)
  }

  /** The state before any call: nothing initialised, buffers empty. */
  function PowerOn(g: Globals): (s: State)
    requires !g.init
    ensures Valid(s) && s.writeTryingSize == 0 && !s.semsCreated
  {
    State(g, false, EmptyRing(ISR_WRITE_BUFFER_SIZE), EmptyRing(READ_BUFFER_SIZE),
          EmptyRing(WRITE_BUFFER_SIZE), 0, 0, 0, false, false, 0)
  }

  /** `_dtty_stm32_usbd_reset`: check-then-act under the reset lock; a reset
      re-registers the USB device and releases any writer waiting on the
      write semaphore. */
  function Reset(s: State): (r: Step<State>)
    ensures !r.abort && !r.sig.rsem
    ensures !s.needReset ==> r.s == s && !r.sig.wsem
    ensures s.needReset ==>
      && !r.s.needReset && r.s.needTxRestart && r.sig.wsem
      && r.s.resetCount == Inc32(s.resetCount)
    ensures r.s.(needReset := s.needReset, needTxRestart := s.needTxRestart, resetCount := s.resetCount) == s
  {
    if s.needReset then
      Step(s.(needReset := false, needTxRestart := true, resetCount := Inc32(s.resetCount)),
           Signals(false, true), false)
    else Step(s, NoSignal, false)
  }

  /** A second reset right after the first finds nothing to do. */
  lemma ResetIdempotent(s: State)
    ensures Reset(Reset(s).s).s == Reset(s).s
    ensures !Reset(Reset(s).s).sig.wsem
  {
  }

  /** A reset keeps the invariant. */
  lemma ResetValid(s: State)
    requires Valid(s)
    ensures Valid(Reset(s).s)
  {
  }

  /** `dtty_stm32_usbd_rx_callback`: a packet has arrived. It is queued as
      far as it fits, with no overflow accounting and no check of a pending
      reset, and the next packet is requested. */
  function RxCallback(s: State, packet: seq<byte>): (r: Step<State>)
    requires Valid(s)
    ensures Valid(r.s) && !r.abort && !r.sig.wsem
    ensures var n := r.s.rbuf.Len() - s.rbuf.Len();
      && 0 <= n <= |packet|
      && r.s.rbuf.data == s.rbuf.data + packet[..n]
      && (n == |packet| || r.s.rbuf.IsFull())
    ensures r.sig.rsem <==> s.rbuf.Len() == 0 && s.semsCreated
    ensures r.s.(rbuf := s.rbuf) == s
  {
    var notify := s.rbuf.Len() == 0;
    var w := s.rbuf.Write(packet);
    Step(s.(rbuf := w.ring), Signals(notify && s.semsCreated, false), false)
  }

  /** `dtty_stm32_usbd_tx_callback`: the transfer of `writeTryingSize` bytes
      has completed. They are removed; if more is queued, everything queued
      is submitted from the head slot (with outcome `usb`). */
  function TxCallback(s: State, usb: UsbdStatus): (r: Step<State>)
    requires Valid(s)
    ensures Valid(r.s) && !r.abort && !r.sig.rsem
    ensures s.writeTryingSize == 0 ==> r == Step(s, NoSignal, false)
    ensures s.writeTryingSize > 0 ==>
      && r.s.wbuf.data == s.wbuf.data[s.writeTryingSize..]
      && r.s.(wbuf := s.wbuf, writeTryingSize := s.writeTryingSize, needTxRestart := s.needTxRestart) == s
    ensures s.writeTryingSize > 0 && r.s.wbuf.Len() == 0 ==>
      r.s.needTxRestart && r.s.writeTryingSize == 0 && r.sig.wsem
    ensures s.writeTryingSize > 0 && r.s.wbuf.Len() > 0 && usb == UsbdOk ==>
      && r.s.writeTryingSize == r.s.wbuf.Len() && r.s.needTxRestart == s.needTxRestart
      && (r.sig.wsem <==> r.s.wbuf.Len() < WRITE_BUFFER_SIZE / 2)
    ensures s.writeTryingSize > 0 && r.s.wbuf.Len() > 0 && usb != UsbdOk ==>
      r.s.needTxRestart && r.s.writeTryingSize == 0 && r.sig.wsem
  {
    if s.writeTryingSize == 0 then Step(s, NoSignal, false)
    else
      var t := s.(wbuf := s.wbuf.Read(s.writeTryingSize).ring);
      if t.wbuf.Len() > 0 then
        var sent := t.(writeTryingSize := t.wbuf.Len());
        if usb == UsbdOk then
          Step(sent, Signals(false, sent.wbuf.Len() < sent.wbuf.cap / 2), false)
        else
          Step(sent.(needTxRestart := true, writeTryingSize := 0), Signals(false, sent.semsCreated), false)
      else
        Step(t.(needTxRestart := true, writeTryingSize := 0), Signals(false, t.semsCreated), false)
  }

  /** The run the transmit callback submits covers every queued byte from the
      head slot on, so it overruns the end of the storage exactly when the
      queue has wrapped; the contiguous run (`cbuf_get_contig_len`) would not. */
  lemma TxResubmitOverrunsIffWrapped(s: State)
    requires Valid(s) && s.writeTryingSize > 0
    requires TxCallback(s, UsbdOk).s.wbuf.Len() > 0
    ensures var r := TxCallback(s, UsbdOk).s;
      && (r.wbuf.head + r.writeTryingSize > r.wbuf.cap <==> r.wbuf.Wrapped())
      && (r.writeTryingSize > r.wbuf.ContigLen() <==> r.wbuf.Wrapped())
  {
  }

  /** A reachable-shaped state in which the resubmitted transfer runs 10 bytes
      past the end of the write buffer's storage. */
  lemma TxResubmitOverrunWitness()
    ensures var s := State(Globals(true, false, true, true), true,
                           EmptyRing(ISR_WRITE_BUFFER_SIZE), EmptyRing(READ_BUFFER_SIZE),
                           Ring(WRITE_BUFFER_SIZE, WRITE_BUFFER_SIZE - 10, seq(20, i => 65)),
                           0, 0, 0, false, false, 5);
            var r := TxCallback(s, UsbdOk).s;
      && Valid(s)
      && r.writeTryingSize == 15 && r.wbuf.head == WRITE_BUFFER_SIZE - 5
      && r.wbuf.head + r.writeTryingSize == WRITE_BUFFER_SIZE + 10
  {
  }

  /** The guard at the top of `dtty_init`: the call does anything at all. */
  predicate InitRuns(s: State, ctx: Context) {
    !ctx.restricted && ctx.kernelActive && !s.g.init && !s.g.inInit
  }

  /** `dtty_init`: always returns 0. Unlike the serial backend it leaves the
      overflow counters as they were. */
  function Init(s: State, ctx: Context): (r: Call<State>)
    requires Valid(s)
    ensures Valid(r.s) && r.ret == 0 && !r.sig.rsem
    ensures !InitRuns(s, ctx) ==> r == Call(s, 0, NoSignal)
    ensures InitRuns(s, ctx) ==>
      && r.s.g == Globals(true, false, true, true) && r.s.semsCreated
      && r.s.resetCount == 0 && r.s.rbuf.Len() == 0
      && !r.s.needReset && r.s.needTxRestart && r.sig.wsem
      && r.s.rxOverflow == s.rxOverflow && r.s.txOverflow == s.txOverflow
      && r.s.wbuf == s.wbuf && r.s.isrBuf == s.isrBuf
      && r.s.writeTryingSize == s.writeTryingSize
  {
    if !InitRuns(s, ctx) then Call(s, 0, NoSignal)
    else
      var entering := s.(semsCreated := true, g := s.g.(inInit := true, echo := true, autocr := true),
                         needReset := true);
      var reset := Reset(entering);
      var counted := reset.s.(resetCount := 0, g := reset.s.g.(init := true));
      var cleared := counted.(rbuf := counted.rbuf.Clear(), g := counted.g.(inInit := false));
      Call(cleared, 0, reset.sig)
  }

  /** Calling `dtty_init` twice does the work once. */
  lemma InitIdempotent(s: State, ctx: Context)
    requires Valid(s)
    ensures Init(Init(s, ctx).s, ctx).s == Init(s, ctx).s
  {
  }

  /** The `if (!_g_bsp_dtty_init) dtty_init();` preamble of the entry points. */
  function Initialised(s: State, ctx: Context): (r: Call<State>)
    requires Valid(s)
    ensures Valid(r.s) && r.ret == 0 && !r.sig.rsem
    ensures s.g.init ==> r == Call(s, 0, NoSignal)
    ensures r.s.g.init <==> s.g.init || InitRuns(s, ctx)
    ensures r.s.isrBuf == s.isrBuf && r.s.wbuf == s.wbuf
  {
    if s.g.init then Call(s, 0, NoSignal) else Init(s, ctx)
  }

  /** The body of `dtty_putc` run under the write lock in task context:
      reset check, the (auto-CR expanded) write with overflow accounting,
      and, when no transfer is in flight, submitting the whole queue. */
  function PutcLocked(s: State, ch: int, usb: UsbdStatus): (r: Call<State>)
    requires Valid(s) && s.g.init
    ensures Valid(r.s) && r.sig == Reset(s).sig
    ensures var d := Expand(s.g.autocr, ch);
            var w := s.wbuf.Write(d);
      && r.s.wbuf == w.ring
      && r.s.txOverflow == (if w.count < |d| then Inc32(s.txOverflow) else s.txOverflow)
    ensures r.ret == 0 || r.ret == -1
    ensures var t := Reset(s).s;
      && (r.ret == -1 <==> t.needTxRestart && usb != UsbdOk)
      && (r.ret == -1 ==> r.s.needTxRestart && r.s.writeTryingSize == 0)
      && (t.needTxRestart && usb == UsbdOk ==>
            !r.s.needTxRestart && r.s.writeTryingSize == r.s.wbuf.Len())
      && (!t.needTxRestart ==> !r.s.needTxRestart && r.s.writeTryingSize == s.writeTryingSize)
      && r.s.(wbuf := t.wbuf, txOverflow := t.txOverflow, needTxRestart := t.needTxRestart,
              writeTryingSize := t.writeTryingSize) == t
  {
    var reset := Reset(s);
    var t := reset.s;
    var d := Expand(t.g.autocr, ch);
    var w := t.wbuf.Write(d);
    var u := t.(wbuf := w.ring,
                txOverflow := if w.count != |d| then Inc32(t.txOverflow) else t.txOverflow);
    if u.needTxRestart then
      var sent := u.(needTxRestart := false, writeTryingSize := u.wbuf.Len());
      if usb == UsbdOk then Call(sent, 0, reset.sig)
      else Call(sent.(needTxRestart := true, writeTryingSize := 0), -1, reset.sig)
    else Call(u, 0, reset.sig)
  }

  /** Like the transmit callback, `dtty_putc` submits every queued byte from
      the head slot, which runs past the end of the storage exactly when the
      queue has wrapped. */
  lemma PutcSubmitOverrunsIffWrapped(s: State, ch: int)
    requires Valid(s) && s.g.init && Reset(s).s.needTxRestart
    ensures var r := PutcLocked(s, ch, UsbdOk).s;
      r.wbuf.head + r.writeTryingSize > r.wbuf.cap <==> r.wbuf.Wrapped()
  {
  }

  /** `dtty_putc`. In interrupt or critical context the raw byte goes to the
      side buffer (no CR expansion, no lock, no initialisation). */
  function Putc(s: State, ctx: Context, ch: int, usb: UsbdStatus): (r: Call<State>)
    requires Valid(s)
    ensures Valid(r.s) && (r.ret == 0 || r.ret == -1)
    ensures ctx.restricted ==>
      && r.ret == 0 && r.sig == NoSignal
      && r.s.(isrBuf := s.isrBuf, txOverflow := s.txOverflow) == s
      && (s.isrBuf.IsFull() ==>
            r.s.isrBuf == s.isrBuf && r.s.txOverflow == Inc32(s.txOverflow))
      && (!s.isrBuf.IsFull() ==>
            r.s.isrBuf.data == s.isrBuf.data + [ToByte(ch)] && r.s.txOverflow == s.txOverflow)
    ensures !ctx.restricted && !s.g.init && !InitRuns(s, ctx) ==> r == Call(s, -1, NoSignal)
    ensures !ctx.restricted && s.g.init ==> r == PutcLocked(s, ch, usb)
    ensures !ctx.restricted && (s.g.init || InitRuns(s, ctx)) ==>
      var u := Initialised(s, ctx);
      var c := PutcLocked(u.s, ch, usb);
      r == Call(c.s, c.ret, u.sig.Or(c.sig))
    ensures !ctx.restricted ==> r.s.isrBuf == s.isrBuf
  {
    if ctx.restricted then
      var w := s.isrBuf.Write([ToByte(ch)]);
      Call(s.(isrBuf := w.ring,
              txOverflow := if w.count != 1 then Inc32(s.txOverflow) else s.txOverflow),
           0, NoSignal)
    else
      var u := Initialised(s, ctx);
      if !u.s.g.init then Call(u.s, -1, u.sig)
      else
        var c := PutcLocked(u.s, ch, usb);
        Call(c.s, c.ret, u.sig.Or(c.sig))
  }

  /** The echo at the end of `_dtty_getc_advan` when `r` is 0: whatever
      `*ch_p` holds is passed to `dtty_putc`, which on an initialised driver
      outside an interrupt is `PutcLocked`, as `Putc`'s contract states. */
  function Echo(s: State, ch: byte, usb: UsbdStatus, sig: Signals): (r: Got<State>)
    requires Valid(s) && s.g.init
    ensures r.p.Ready? && r.p.ret == 0 && r.ch == ch && Valid(r.p.s)
    ensures r.p.s.rbuf == s.rbuf && r.p.s.g == s.g
    ensures !s.g.echo ==> r.p == Ready(s, 0, sig)
    ensures s.g.echo ==> r.p.s == PutcLocked(s, ch as int, usb).s
  {
    if s.g.echo then
      var c := PutcLocked(s, ch as int, usb);
      Got(Ready(c.s, 0, sig.Or(c.sig)), ch)
    else Got(Ready(s, 0, sig), ch)
  }

  /** One pass of the read loop of `_dtty_getc_advan`, with the lock held,
      and the echo when the pass ends the loop. */
  function GetcPass(s: State, blocked: bool, chIn: byte, usb: UsbdStatus): (r: Got<State>)
    requires Valid(s) && s.g.init
    ensures Valid(r.p.s) && !r.p.s.needReset && r.p.s.g == s.g
    ensures s.rbuf.Len() > 0 ==>
      && r.p.Ready? && r.p.ret == 0
      && r.ch == s.rbuf.data[0] && r.p.s.rbuf.data == s.rbuf.data[1..]
    ensures s.rbuf.Len() == 0 && !blocked ==>
      r.p.Ready? && r.p.ret == 0 && r.ch == chIn && r.p.s.rbuf == s.rbuf
    ensures s.rbuf.Len() == 0 && blocked ==> r.p == Waiting(Reset(s).s, Reset(s).sig)
    ensures r.p.Ready? && s.g.echo ==>
      var d := Expand(s.g.autocr, r.ch as int);
      var w := s.wbuf.Write(d);
      var restart := Reset(s).s.needTxRestart;
      && r.p.s.wbuf == w.ring
      && r.p.s.txOverflow == (if w.count < |d| then Inc32(s.txOverflow) else s.txOverflow)
      && (r.p.s.needTxRestart <==> restart && usb != UsbdOk)
      && r.p.s.writeTryingSize ==
           (if !restart then s.writeTryingSize else if usb == UsbdOk then r.p.s.wbuf.Len() else 0)
    ensures !s.g.echo ==>
      r.p.s.wbuf == s.wbuf && r.p.s.txOverflow == s.txOverflow && r.p.s.writeTryingSize == s.writeTryingSize
    ensures var t := Reset(s);
      && r.p.sig == t.sig && r.p.s.resetCount == t.s.resetCount
      && r.p.s.rxOverflow == s.rxOverflow && r.p.s.semsCreated == s.semsCreated
      && (!s.g.echo ==> r.p.s.needTxRestart == t.s.needTxRestart)
  {
    var reset := Reset(s);
    var t := reset.s;
    if t.rbuf.Len() > 0 then
      var taken := t.rbuf.Read(1);
      Echo(t.(rbuf := taken.ring), taken.bytes[0], usb, reset.sig)
    else if !blocked then Echo(t, chIn, usb, reset.sig)
    else Got(Waiting(t, reset.sig), chIn)
  }

  /** `_dtty_getc_advan` up to the end of its first pass of the read loop.
      `lockResult` is what `mutex_lock` / `mutex_lock_timed` returned. */
  function Getc(s: State, ctx: Context, blocked: bool, lockResult: int, chIn: byte, usb: UsbdStatus): (r: Got<State>)
    requires Valid(s)
    ensures Valid(r.p.s)
    ensures ctx.restricted ==> r == Got(Ready(s, -1, NoSignal), chIn)
    ensures !ctx.restricted && !s.g.init && !InitRuns(s, ctx) ==> r == Got(Ready(s, -1, NoSignal), chIn)
    ensures !ctx.restricted && s.g.init && lockResult != 0 ==> r == Got(Ready(s, lockResult, NoSignal), chIn)
    ensures !ctx.restricted && s.g.init && lockResult == 0 ==> r == GetcPass(s, blocked, chIn, usb)
    ensures !ctx.restricted && (s.g.init || InitRuns(s, ctx)) ==>
      var u := Initialised(s, ctx);
      var g := GetcPass(u.s, blocked, chIn, usb);
      && (lockResult != 0 ==> r == Got(Ready(u.s, lockResult, u.sig), chIn))
      && (lockResult == 0 ==>
            && r.ch == g.ch && r.p.s == g.p.s && r.p.sig == u.sig.Or(g.p.sig)
            && (r.p.Ready? <==> g.p.Ready?) && (r.p.Ready? ==> r.p.ret == g.p.ret))
  {
    if ctx.restricted then Got(Ready(s, -1, NoSignal), chIn)
    else
      var u := Initialised(s, ctx);
      if !u.s.g.init then Got(Ready(u.s, -1, u.sig), chIn)
      else if lockResult != 0 then Got(Ready(u.s, lockResult, u.sig), chIn)
      else
        var g := GetcPass(u.s, blocked, chIn, usb);
        Got(if g.p.Ready? then Ready(g.p.s, g.p.ret, u.sig.Or(g.p.sig))
            else Waiting(g.p.s, u.sig.Or(g.p.sig)), g.ch)
  }

  /** A non-blocking read of an empty buffer reports success (0) and leaves
      `*ch_p` as the caller had it, echoing that stale value. */
  lemma NonblockingEmptyReadSucceeds(s: State, ctx: Context, chIn: byte, usb: UsbdStatus)
    requires Valid(s) && s.g.init && !ctx.restricted && s.rbuf.Len() == 0
    ensures var r := Getc(s, ctx, false, 0, chIn, usb);
      && r.p.Ready? && r.p.ret == 0 && r.ch == chIn
      && (s.g.echo ==> r.p.s == PutcLocked(Reset(s).s, chIn as int, usb).s)
  {
  }

  /** A packet "ab\n" received into an empty read buffer comes out of three
      successive reads as 'a', 'b', '\n', after which `dtty_kbhit` reports
      nothing pending. */
  lemma ReceiveThenReadInOrder(s: State, ctx: Context, usb: UsbdStatus, chIn: byte)
    requires Valid(s) && s.g.init && !ctx.restricted && s.rbuf.Len() == 0
    ensures
      var s1 := RxCallback(s, [97, 98, LF]).s;
      var g1 := Getc(s1, ctx, true, 0, chIn, usb);
      var g2 := Getc(g1.p.s, ctx, true, 0, chIn, usb);
      var g3 := Getc(g2.p.s, ctx, true, 0, chIn, usb);
      && g1.p.Ready? && g1.p.ret == 0 && g1.ch == 97
      && g2.p.Ready? && g2.p.ret == 0 && g2.ch == 98
      && g3.p.Ready? && g3.p.ret == 0 && g3.ch == LF
      && Kbhit(g3.p.s, ctx).ret == 0
  {
    var packet: seq<byte> := [97, 98, LF];
    var s1 := RxCallback(s, packet).s;
    assert packet[..3] == packet;
    assert s1.rbuf.data == packet;
    var g1 := Getc(s1, ctx, true, 0, chIn, usb);
    assert g1.p.s.rbuf.data == [98, LF];
    var g2 := Getc(g1.p.s, ctx, true, 0, chIn, usb);
    assert g2.p.s.rbuf.data == [LF];
    var g3 := Getc(g2.p.s, ctx, true, 0, chIn, usb);
    assert g3.p.s.rbuf.Len() == 0;
  }

  /** `dtty_putc` stores as much of the expanded character as there is room
      for, and counts an overflow only when that is not all of it. */
  lemma PutcLockedStores(s: State, ch: int, usb: UsbdStatus)
    requires Valid(s) && s.g.init
    ensures var d := Expand(s.g.autocr, ch);
            var r := PutcLocked(s, ch, usb).s;
      && r.wbuf.data == s.wbuf.data + d[..Min(|d|, s.wbuf.Free())]
      && r.wbuf.Free() == s.wbuf.Free() - Min(|d|, s.wbuf.Free())
      && r.txOverflow == (if |d| > s.wbuf.Free() then Inc32(s.txOverflow) else s.txOverflow)
  {
    var d := Expand(s.g.autocr, ch);
    var r := PutcLocked(s, ch, usb).s;
    var n := r.wbuf.Len() - s.wbuf.Len();
    assert n == Min(|d|, s.wbuf.Free());
  }

  /** The `dtty_putc` loop of `dtty_putn` in task context, character `i + k`
      answered by `usb(i + k)`. */
  function PutAll(s: State, ctx: Context, chars: seq<byte>, usb: nat -> UsbdStatus, i: nat): (r: Call<State>)
    requires Valid(s) && s.g.init && !ctx.restricted
    ensures Valid(r.s) && r.s.g == s.g && r.s.rbuf == s.rbuf && r.s.isrBuf == s.isrBuf
    decreases |chars|
  {
    if |chars| == 0 then Call(s, 0, NoSignal)
    else
      var c := Putc(s, ctx, chars[0] as int, usb(i));
      var rest := PutAll(c.s, ctx, chars[1..], usb, i + 1);
      Call(rest.s, 0, c.sig.Or(rest.sig))
  }

  /** On an initialised driver each turn of the loop is the locked body of
      `dtty_putc`. */
  lemma PutAllUnfold(s: State, ctx: Context, chars: seq<byte>, usb: nat -> UsbdStatus, i: nat)
    requires Valid(s) && s.g.init && !ctx.restricted && |chars| > 0
    ensures PutAll(s, ctx, chars, usb, i).s
         == PutAll(PutcLocked(s, chars[0] as int, usb(i)).s, ctx, chars[1..], usb, i + 1).s
  {
  }

  /** The first turn of the loop, with what `dtty_putc` did to the room in
      the write buffer and to the overflow counter; the loop's counter ends
      as it would going on from `c`. */
  lemma PutAllFirst(s: State, ctx: Context, chars: seq<byte>, usb: nat -> UsbdStatus, i: nat) returns (c: State)
    requires Valid(s) && s.g.init && !ctx.restricted && |chars| > 0
    ensures var d := Expand(s.g.autocr, chars[0] as int);
            var f := s.wbuf.Free();
      && Valid(c) && c.g == s.g
      && c.wbuf.Free() == f - Min(|d|, f)
      && c.txOverflow == (if |d| > f then Inc32(s.txOverflow) else s.txOverflow)
      && PutAll(s, ctx, chars, usb, i).s.txOverflow == PutAll(c, ctx, chars[1..], usb, i + 1).s.txOverflow
  {
    PutAllUnfold(s, ctx, chars, usb, i);
    PutcLockedStores(s, chars[0] as int, usb(i));
    c := PutcLocked(s, chars[0] as int, usb(i)).s;
  }

  /** The loop leaves the receive side alone; once it has run, the reset
      check of its first turn has been done. */
  lemma {:induction false} PutAllKeeps(s: State, ctx: Context, chars: seq<byte>, usb: nat -> UsbdStatus, i: nat)
    requires Valid(s) && s.g.init && !ctx.restricted
    ensures var r := PutAll(s, ctx, chars, usb, i);
      && r.s.rxOverflow == s.rxOverflow && r.s.semsCreated == s.semsCreated
      && (|chars| == 0 ==> r == Call(s, 0, NoSignal))
      && (|chars| > 0 ==> !r.s.needReset && r.s.resetCount == Reset(s).s.resetCount)
    decreases |chars|
  {
    if |chars| > 0 {
      var c := PutcLocked(s, chars[0] as int, usb(i)).s;
      PutAllUnfold(s, ctx, chars, usb, i);
      PutAllKeeps(c, ctx, chars[1..], usb, i + 1);
    }
  }

  /** The loop stores what one truncating write of the whole expanded
      string would: the old contents followed by as much of the expansion as
      there was room for. When all of it fits, no overflow is counted. */
  lemma {:induction false} PutAllStores(s: State, ctx: Context, chars: seq<byte>, usb: nat -> UsbdStatus, i: nat)
    requires Valid(s) && s.g.init && !ctx.restricted
    ensures var r := PutAll(s, ctx, chars, usb, i).s;
            var e := ExpandAll(s.g.autocr, chars);
      && r.wbuf.data == s.wbuf.data + e[..Min(|e|, s.wbuf.Free())]
      && (|e| <= s.wbuf.Free() ==> r.txOverflow == s.txOverflow)
    decreases |chars|
  {
    var e := ExpandAll(s.g.autocr, chars);
    if |chars| == 0 {
      assert e[..Min(|e|, s.wbuf.Free())] == [];
    } else {
      var ch := chars[0] as int;
      var d := Expand(s.g.autocr, ch);
      var rest := ExpandAll(s.g.autocr, chars[1..]);
      var c := PutcLocked(s, ch, usb(i)).s;
      PutAllUnfold(s, ctx, chars, usb, i);
      assert e == d + rest;
      PutcLockedStores(s, ch, usb(i));
      PutAllStores(c, ctx, chars[1..], usb, i + 1);
      TruncateConcat(s.wbuf.data, c.wbuf.data, PutAll(c, ctx, chars[1..], usb, i + 1).s.wbuf.data,
                     d, rest, s.wbuf.Free());
    }
  }

  /** The loop adds one to `tx_overflow_count` for each character whose
      expansion did not fit in the room the earlier ones left, wrapping as
      a `uint32_t` does. */
  lemma {:induction false} PutAllCounts(s: State, ctx: Context, chars: seq<byte>, usb: nat -> UsbdStatus, i: nat)
    requires Valid(s) && s.g.init && !ctx.restricted
    ensures PutAll(s, ctx, chars, usb, i).s.txOverflow
         == Add32(s.txOverflow, Truncations(s.g.autocr, chars, s.wbuf.Free()))
  {
    PutAllOverflows(s, ctx, chars, usb, i);
    OverflowAfterCounts(s.g.autocr, chars, s.wbuf.Free(), s.txOverflow);
  }

  /** The loop's overflow counter, one turn at a time. */
  lemma {:induction false} PutAllOverflows(s: State, ctx: Context, chars: seq<byte>, usb: nat -> UsbdStatus, i: nat)
    requires Valid(s) && s.g.init && !ctx.restricted
    ensures PutAll(s, ctx, chars, usb, i).s.txOverflow
         == OverflowAfter(s.g.autocr, chars, s.wbuf.Free(), s.txOverflow)
    decreases |chars|
  {
    if |chars| > 0 {
      var c := PutAllFirst(s, ctx, chars, usb, i);
      PutAllOverflows(c, ctx, chars[1..], usb, i + 1);
    }
  }



  /** `dtty_putn`; `str` is `None` when the caller passes NULL. The argument checks
      come before the context test. */
  function Putn(s: State, ctx: Context, str: Option<seq<byte>>, len: int, usb: nat -> UsbdStatus): (r: Call<State>)
    requires Valid(s)
    requires str.Some? && 0 <= len ==> len <= |str.value|
    ensures Valid(r.s)
    ensures str.None? ==> r == Call(s, -2, NoSignal)
    ensures str.Some? && len < 0 ==> r == Call(s, -3, NoSignal)
    ensures str.Some? && 0 <= len && ctx.restricted ==>
      && 0 <= r.ret <= len && r.sig == NoSignal
      && AppendsPrefix(r.s.isrBuf.data, s.isrBuf.data, str.value, r.ret)
      && (r.ret == len || r.s.isrBuf.IsFull())
      && r.s.txOverflow == (if r.ret < len then Inc32(s.txOverflow) else s.txOverflow)
      && r.s.(isrBuf := s.isrBuf, txOverflow := s.txOverflow) == s
    ensures str.Some? && 0 <= len && !ctx.restricted && !s.g.init && !InitRuns(s, ctx) ==>
      r == Call(s, -1, NoSignal)
    ensures str.Some? && 0 <= len && !ctx.restricted && (s.g.init || InitRuns(s, ctx)) ==>
      r.ret == len
    ensures str.Some? && 0 <= len && !ctx.restricted && (s.g.init || InitRuns(s, ctx)) ==>
      var u := Initialised(s, ctx).s;
      var e := ExpandAll(u.g.autocr, str.value[..len]);
      && r.s.g == u.g && r.s.rbuf == u.rbuf
      && r.s.rxOverflow == u.rxOverflow && r.s.semsCreated == u.semsCreated
      && r.s.wbuf.data == s.wbuf.data + e[..Min(|e|, s.wbuf.Free())]
      && (|e| <= s.wbuf.Free() ==> r.s.txOverflow == u.txOverflow)
      && (len == 0 ==> r.s == u)
      && (len > 0 ==> !r.s.needReset && r.s.resetCount == Reset(u).s.resetCount)
    ensures !ctx.restricted ==> r.s.isrBuf == s.isrBuf
  {
    if str.None? then Call(s, -2, NoSignal)
    else if len < 0 then Call(s, -3, NoSignal)
    else if ctx.restricted then
      var w := s.isrBuf.Write(str.value[..len]);
      Call(s.(isrBuf := w.ring,
              txOverflow := if w.count != len then Inc32(s.txOverflow) else s.txOverflow),
           w.count, NoSignal)
    else
      var u := Initialised(s, ctx);
      if !u.s.g.init then Call(u.s, -1, u.sig)
      else
        PutAllKeeps(u.s, ctx, str.value[..len], usb, 0);
        PutAllStores(u.s, ctx, str.value[..len], usb, 0);
        var c := PutAll(u.s, ctx, str.value[..len], usb, 0);
        Call(c.s, len, u.sig.Or(c.sig))
  }

  /** On an initialised driver in task context, `dtty_putn` adds one to
      `tx_overflow_count` for each character whose expansion did not fit in
      the room the earlier ones left, wrapping as a `uint32_t` does. */
  lemma PutnCounts(s: State, ctx: Context, str: seq<byte>, len: nat, usb: nat -> UsbdStatus)
    requires Valid(s) && !ctx.restricted && (s.g.init || InitRuns(s, ctx)) && len <= |str|
    ensures var u := Initialised(s, ctx).s;
      Putn(s, ctx, Some(str), len, usb).s.txOverflow
        == Add32(u.txOverflow, Truncations(u.g.autocr, str[..len], s.wbuf.Free()))
  {
    PutAllCounts(Initialised(s, ctx).s, ctx, str[..len], usb, 0);
  }

  /** The first `dtty_putc` after boot in task context initialises the
      driver, which turns echo and auto-CR on, empties the read buffer and
      gives the write semaphore, and then stores the expanded character.
      `dtty_init` leaves a transmit pending, so the whole queue is
      submitted. */
  lemma FirstPutcStores(s: State, ctx: Context, ch: int, usb: UsbdStatus)
    requires Valid(s) && InitRuns(s, ctx)
    ensures var r := Putc(s, ctx, ch, usb);
            var d := Expand(true, ch);
      && r.s.g == Globals(true, false, true, true) && r.s.rbuf.Len() == 0 && r.sig.wsem
      && r.s.wbuf.data == s.wbuf.data + d[..Min(|d|, s.wbuf.Free())]
      && (r.ret == -1 <==> usb != UsbdOk)
      && (usb == UsbdOk ==> r.s.writeTryingSize == r.s.wbuf.Len())
  {
    PutcLockedStores(Initialised(s, ctx).s, ch, usb);
  }

  /** The first blocking `dtty_getc` after boot initialises the driver, which
      empties the read buffer, so the pass waits. */
  lemma FirstGetcWaits(s: State, ctx: Context, chIn: byte, usb: UsbdStatus)
    requires Valid(s) && InitRuns(s, ctx)
    ensures var r := Getc(s, ctx, true, 0, chIn, usb);
      && r.p.Waiting? && r.p.s.g == Globals(true, false, true, true) && r.p.s.rbuf.Len() == 0
      && r.p.sig.wsem
  {
  }

  /** The first `dtty_putn` after boot in task context initialises the
      driver and stores the string expanded with auto-CR on. */
  lemma FirstPutnStores(s: State, ctx: Context, str: seq<byte>, usb: nat -> UsbdStatus)
    requires Valid(s) && InitRuns(s, ctx)
    ensures var r := Putn(s, ctx, Some(str), |str|, usb);
            var e := ExpandAll(true, str);
      && r.ret == |str| && r.s.g == Globals(true, false, true, true)
      && r.s.wbuf.data == s.wbuf.data + e[..Min(|e|, s.wbuf.Free())]
      && (|e| <= s.wbuf.Free() ==> r.s.txOverflow == s.txOverflow)
  {
    assert str[..|str|] == str;
  }

  /** `dtty_kbhit` */
  function Kbhit(s: State, ctx: Context): (r: Call<State>)
    requires Valid(s)
    ensures Valid(r.s)
    ensures ctx.restricted ==> r == Call(s, -1, NoSignal)
    ensures !ctx.restricted && !s.g.init && !InitRuns(s, ctx) ==> r == Call(s, -1, NoSignal)
    ensures !ctx.restricted && s.g.init ==>
      r.s == s && (r.ret == 1 <==> s.rbuf.Len() > 0) && (r.ret == 0 <==> s.rbuf.Len() == 0)
    ensures !ctx.restricted && InitRuns(s, ctx) ==> r.ret == 0
    ensures !ctx.restricted && (s.g.init || InitRuns(s, ctx)) ==>
      r.s == Initialised(s, ctx).s && r.sig == Initialised(s, ctx).sig
  {
    if ctx.restricted then Call(s, -1, NoSignal)
    else
      var u := Initialised(s, ctx);
      if !u.s.g.init then Call(u.s, -1, u.sig)
      else Call(u.s, if u.s.rbuf.Len() != 0 then 1 else 0, u.sig)
  }

  /** `dtty_flush`: transmission is already asynchronous and bounded by the
      buffer, so there is nothing to wait for. */
  function Flush(s: State): (r: Call<State>)
    ensures r.ret == 0 && r.s == s && r.sig == NoSignal
  {
    Call(s, 0, NoSignal)
  }

  function Flatten(runs: seq<seq<byte>>): seq<byte>
  {
    if |runs| == 0 then [] else Flatten(runs[..|runs| - 1]) + runs[|runs| - 1]
  }

  /** The side buffer's expansion, with auto-CR as given, fits in the write
      buffer's free space. */
  predicate FitsInWriteBuffer(s: State, autocr: bool) {
    s.wbuf.Valid() && |ExpandAll(autocr, s.isrBuf.data)| <= s.wbuf.Free()
  }

  /** `dtty_putn` gets past its lazy initialisation. */
  predicate Writable(s: State, ctx: Context) {
    s.g.init || InitRuns(s, ctx)
  }

  /** One turn of the `dtty_write_process` loop: feed the contiguous run at
      the head of the side buffer to `dtty_putn`, then drop it. The run is
      dropped whatever `dtty_putn` answered. */
  function DrainRun(s: State, ctx: Context, usb: nat -> UsbdStatus): (r: Call<State>)
    requires Valid(s) && !ctx.restricted
    ensures Valid(r.s) && r.s.isrBuf.cap == s.isrBuf.cap
    ensures r.s.isrBuf.data == s.isrBuf.data[s.isrBuf.ContigLen()..]
    ensures !Writable(s, ctx) ==> r.s == s.(isrBuf := r.s.isrBuf)
    ensures Writable(s, ctx) ==>
      var u := Initialised(s, ctx).s;
      && r.s.g == u.g && r.s.rbuf == u.rbuf
      && (FitsInWriteBuffer(s, u.g.autocr) ==>
            && r.s.wbuf.data == s.wbuf.data + ExpandAll(u.g.autocr, s.isrBuf.data[..s.isrBuf.ContigLen()])
            && FitsInWriteBuffer(r.s, u.g.autocr))
  {
    var n := s.isrBuf.ContigLen();
    var run := s.isrBuf.data[..n];
    var c := Putn(s, ctx, Some(run), n, usb);
    var taken := c.s.isrBuf.Read(n);
    assert taken.ring.data == s.isrBuf.data[n..];
    assert run[..n] == run;
    var autocr := Initialised(s, ctx).s.g.autocr;
    if Writable(s, ctx) && FitsInWriteBuffer(s, autocr) then
      ExpandAllAppend(autocr, run, taken.ring.data);
      assert s.isrBuf.data == run + taken.ring.data;
      assert |ExpandAll(autocr, run)| <= s.wbuf.Free();
      assert c.s.wbuf.data == s.wbuf.data + ExpandAll(autocr, run);
      Call(c.s.(isrBuf := taken.ring), 0, c.sig)
    else
      Call(c.s.(isrBuf := taken.ring), 0, c.sig)
  }

  /** `dtty_write_process`: moves what interrupt-context writes left in the
      side buffer through `dtty_putn`, one contiguous run at a time. Returns
      the state afterwards, the runs in the order they were fed, and the
      semaphores given on the way. The bytes of run `k` reach `dtty_putc`
      with the USB outcomes `usb(o)`, `usb(o + 1)`, ..., where `o` is the
      number of bytes fed before that run. */
  method WriteProcess(s: State, ctx: Context, usb: nat -> UsbdStatus)
    returns (r: State, runs: seq<seq<byte>>, sig: Signals)
    requires Valid(s)
    ensures Valid(r)
    ensures ctx.restricted ==> r == s && runs == []
    ensures !ctx.restricted ==> r.isrBuf.Len() == 0 && Flatten(runs) == s.isrBuf.data
    ensures forall k :: 0 <= k < |runs| ==> 0 < |runs[k]| <= s.isrBuf.cap
    ensures !ctx.restricted && !Writable(s, ctx) ==> r == s.(isrBuf := r.isrBuf)
    ensures !ctx.restricted && s.g.init ==> r.g == s.g && r.rbuf == s.rbuf
    ensures !ctx.restricted && InitRuns(s, ctx) && s.isrBuf.Len() > 0 ==>
      r.g == Globals(true, false, true, true) && r.rbuf.Len() == 0
    ensures !ctx.restricted && Writable(s, ctx) ==>
      var autocr := Initialised(s, ctx).s.g.autocr;
      FitsInWriteBuffer(s, autocr) ==> r.wbuf.data == s.wbuf.data + ExpandAll(autocr, s.isrBuf.data)
  {
    r, runs, sig := s, [], NoSignal;
    if ctx.restricted {
      return;
    }
    var fed: nat := 0;
    while r.isrBuf.Len() > 0
      invariant Drained(s, r, runs, ctx)
      decreases r.isrBuf.Len()
    {
      var n := r.isrBuf.ContigLen();
      var feed := (k: nat) => usb(fed + k);
      var c := DrainRun(r, ctx, feed);
      DrainRunKeeps(s, r, runs, ctx, feed);
      runs := runs + [r.isrBuf.data[..n]];
      r := c.s;
      sig := sig.Or(c.sig);
      fed := fed + n;
    }
    assert Flatten(runs) + [] == Flatten(runs);
  }

  /** What the drain loop keeps: the runs fed so far followed by what is
      left make up the side buffer as it was, and every run is non-empty and
      no longer than the buffer. A driver that cannot be initialised is
      untouched apart from the side buffer. Otherwise, once a run has been
      fed, the driver is initialised as the first `dtty_putn` left it, and
      when everything fits the write buffer holds the expansion of the runs
      fed so far. */
  predicate Drained(s: State, r: State, runs: seq<seq<byte>>, ctx: Context) {
    && Valid(s) && Valid(r) && r.isrBuf.cap == s.isrBuf.cap
    && Flatten(runs) + r.isrBuf.data == s.isrBuf.data
    && (forall k :: 0 <= k < |runs| ==> 0 < |runs[k]| <= s.isrBuf.cap)
    && (|runs| == 0 ==> r == s)
    && (!Writable(s, ctx) ==> r == s.(isrBuf := r.isrBuf))
    && (Writable(s, ctx) && |runs| > 0 ==>
          r.g == Initialised(s, ctx).s.g && r.rbuf == Initialised(s, ctx).s.rbuf)
    && (Writable(s, ctx) && FitsInWriteBuffer(s, Initialised(s, ctx).s.g.autocr) ==>
          var autocr := Initialised(s, ctx).s.g.autocr;
          r.wbuf.data == s.wbuf.data + ExpandAll(autocr, Flatten(runs)) && FitsInWriteBuffer(r, autocr))
  }

  /** One turn of the drain loop keeps `Drained`. */
  lemma DrainRunKeeps(s: State, r: State, runs: seq<seq<byte>>, ctx: Context, feed: nat -> UsbdStatus)
    requires !ctx.restricted && r.isrBuf.Len() > 0 && Drained(s, r, runs, ctx)
    ensures Drained(s, DrainRun(r, ctx, feed).s, runs + [r.isrBuf.data[..r.isrBuf.ContigLen()]], ctx)
  {
    var run := r.isrBuf.data[..r.isrBuf.ContigLen()];
    var c := DrainRun(r, ctx, feed);
    FlattenSnoc(runs, run);
    assert run + c.s.isrBuf.data == r.isrBuf.data;
    assert Flatten(runs + [run]) + c.s.isrBuf.data == s.isrBuf.data by {
      assert Flatten(runs) + run + c.s.isrBuf.data == Flatten(runs) + (run + c.s.isrBuf.data);
    }
    assert forall k :: 0 <= k < |runs| ==> (runs + [run])[k] == runs[k];
    if Writable(s, ctx) {
      var u := Initialised(s, ctx).s;
      assert u.g.init;
      assert Writable(r, ctx) && Initialised(r, ctx).s.g == u.g && Initialised(r, ctx).s.rbuf == u.rbuf;
      if FitsInWriteBuffer(s, u.g.autocr) {
        AppendExpanded(s.wbuf.data, r.wbuf.data, c.s.wbuf.data, u.g.autocr, Flatten(runs), run);
      }
    }
  }

  lemma AppendExpanded(w0: seq<byte>, w1: seq<byte>, w2: seq<byte>, autocr: bool, done: seq<byte>, run: seq<byte>)
    requires w1 == w0 + ExpandAll(autocr, done) && w2 == w1 + ExpandAll(autocr, run)
    ensures w2 == w0 + ExpandAll(autocr, done + run)
  {
    ExpandAllAppend(autocr, done, run);
  }

  lemma FlattenSnoc(runs: seq<seq<byte>>, run: seq<byte>)
    ensures Flatten(runs + [run]) == Flatten(runs) + run
  {
    assert (runs + [run])[..|runs|] == runs;
  }

  /** A run of USB receive callbacks, one per packet, oldest first. */
  function RxAll(s: State, packets: seq<seq<byte>>): (r: State)
    requires Valid(s)
    ensures Valid(r) && r.g == s.g
    decreases |packets|
  {
    if |packets| == 0 then s
    else RxCallback(RxAll(s, packets[..|packets| - 1]), packets[|packets| - 1]).s
  }

  /** Packets received while there is room are all queued, in the order
      they arrived, behind the bytes already waiting; nothing else changes. */
  lemma {:induction false} RxAllAppends(s: State, packets: seq<seq<byte>>)
    requires Valid(s) && |Flatten(packets)| <= s.rbuf.Free()
    ensures RxAll(s, packets).rbuf.data == s.rbuf.data + Flatten(packets)
    ensures RxAll(s, packets).(rbuf := s.rbuf) == s
    decreases |packets|
  {
    if |packets| > 0 {
      var front := packets[..|packets| - 1];
      var last := packets[|packets| - 1];
      assert packets == front + [last];
      FlattenSnoc(front, last);
      RxAllAppends(s, front);
      assert last[..|last|] == last;
    }
  }

  /** `k` blocking reads in a row with the lock held. A read that would wait
      ends the run. */
  function ReadAll(s: State, k: nat, usb: UsbdStatus): (r: Reads<State>)
    requires Valid(s) && s.g.init
    ensures Valid(r.s) && r.s.g == s.g
    decreases k
  {
    if k == 0 then Reads(s, [])
    else
      var g := GetcPass(s, true, 0, usb);
      if g.p.Waiting? then Reads(g.p.s, [])
      else
        var rest := ReadAll(g.p.s, k - 1, usb);
        Reads(rest.s, [g.ch] + rest.bytes)
  }

  /** Reads return the queued bytes oldest first and leave the rest queued. */
  lemma ReadAllTakesOldest(s: State, k: nat, usb: UsbdStatus)
    requires Valid(s) && s.g.init && k <= s.rbuf.Len()
    ensures ReadAll(s, k, usb).bytes == s.rbuf.data[..k]
    ensures ReadAll(s, k, usb).s.rbuf.data == s.rbuf.data[k..]
  {
    ReadAllDrains(s, k, usb);
    DrainTakesOldest(s.rbuf, k);
  }

  /** Blocking reads pop the read buffer exactly as the ring's one-byte
      consumer `Drain` does. */
  lemma {:induction false} ReadAllDrains(s: State, k: nat, usb: UsbdStatus)
    requires Valid(s) && s.g.init
    ensures ReadAll(s, k, usb).bytes == Drain(s.rbuf, k).bytes
    ensures ReadAll(s, k, usb).s.rbuf == Drain(s.rbuf, k).ring
    decreases k
  {
    if k > 0 && s.rbuf.Len() > 0 {
      var g := GetcPass(s, true, 0, usb);
      var first := s.rbuf.Read(1);
      assert g.p.Ready? && g.p.s.rbuf == first.ring && [g.ch] == first.bytes;
      ReadAllDrains(g.p.s, k - 1, usb);
    }
  }

  /** With echo on, a run of reads leaves the write buffer as echoing, one
      at a time, the bytes the ring's `Drain` pops leaves it. */
  lemma {:induction false} ReadAllEchoes(s: State, k: nat, usb: UsbdStatus)
    requires Valid(s) && s.g.init && s.g.echo
    ensures ReadAll(s, k, usb).s.wbuf == EchoDrain(s.wbuf, s.rbuf, s.g.autocr, k)
    decreases k
  {
    if k > 0 && s.rbuf.Len() > 0 {
      var g := GetcPass(s, true, 0, usb);
      EchoDrainStep(s.wbuf, s.rbuf, s.g.autocr, k);
      assert g.p.Ready? && g.p.s.rbuf == s.rbuf.Read(1).ring && g.ch == s.rbuf.data[0];
      assert ReadAll(s, k, usb).s == ReadAll(g.p.s, k - 1, usb).s;
      ReadAllEchoes(g.p.s, k - 1, usb);
    }
  }

  /** The driver is a FIFO: packets received while there is room are read
      back, after the bytes already waiting, in the order they arrived.
      `dtty_kbhit` reports data pending once a non-empty packet has arrived
      and nothing pending once every byte has been read. */
  lemma ReceiveThenRead(s: State, packets: seq<seq<byte>>, ctx: Context, usb: UsbdStatus)
    requires Valid(s) && s.g.init && !ctx.restricted
    requires |Flatten(packets)| <= s.rbuf.Free()
    ensures |Flatten(packets)| > 0 ==> Kbhit(RxAll(s, packets), ctx).ret == 1
    ensures var got := ReadAll(RxAll(s, packets), s.rbuf.Len() + |Flatten(packets)|, usb);
      && got.bytes == s.rbuf.data + Flatten(packets)
      && Kbhit(got.s, ctx).ret == 0
      && (s.g.echo ==>
            var e := ExpandAll(s.g.autocr, got.bytes);
            got.s.wbuf.data == s.wbuf.data + e[..Min(|e|, s.wbuf.Free())])
  {
    RxAllAppends(s, packets);
    var r := RxAll(s, packets);
    var n := s.rbuf.Len() + |Flatten(packets)|;
    ReadAllTakesOldest(r, n, usb);
    assert r.rbuf.data[..n] == r.rbuf.data;
    if s.g.echo {
      ReadAllEchoes(r, n, usb);
      ReadAllDrains(r, n, usb);
      EchoDrainEchoes(r.wbuf, r.rbuf, s.g.autocr, n);
      EchoEachStores(r.wbuf, s.g.autocr, r.rbuf.data);
    }
  }

  /** A character written while the transmitter is idle is submitted along
      with everything queued before it; that transfer's completion empties
      the write buffer, leaves the transmitter idle again and wakes a
      waiting writer. */
  lemma SubmitThenComplete(s: State, ch: int, usb: UsbdStatus)
    requires Valid(s) && s.g.init && !s.needReset && s.needTxRestart
    ensures var p := PutcLocked(s, ch, UsbdOk).s;
            var r := TxCallback(p, usb);
      && p.writeTryingSize == p.wbuf.Len() > 0 && !p.needTxRestart
      && r.s.wbuf.Len() == 0 && r.s.needTxRestart && r.s.writeTryingSize == 0 && r.sig.wsem
  {
  }
}
